=== FILE: README.md ===
# Python intrusion detection system — a Dafny model of its core

The system watches SSH authentication logs and HTTP requests for attacks. It counts failed
logins per address, classifies addresses by severity, and blocks the worst ones with a firewall
drop rule. Blocked addresses are kept in a plain-text record file. This project models the
system's core as pure Dafny functions over immutable data and proves what each operation
promises:

- **Containers** (`src/custom_structures.py`): the singly linked list, the separately chained
  hash table and the linked FIFO queue. They are modelled on an explicit node chain
  (`Chains`), with an abstraction to a sequence, plus a key/value view of the table.
- **Threat detector** (`src/detector.py`): the count-to-severity step function, the threshold
  filter over the attempt map, the threat history and its per-level summary.
- **HTTP attack detector** (`src/http_detector.py`): four category checks, category ordering,
  severity from the category set, the per-address tracker kept in the hash table, and the
  attack summary.
- **SSH log parser** (`src/log_parser.py`): the ordered rules with first-match-wins, the
  address capture group per rule, and the per-call and cumulative attempt ledgers.
- **Blocker** (`src/blocker.py`): the record-file writer and parser, idempotent blocking, and
  unblocking.
- **Controller** (`src/main.py`): the scan-and-respond decision rule and the monitoring loop,
  with the database and logger calls recorded as an event trace.

Things the model takes as parameters:

- Python's `hash()` is a parameter `h: K -> int`; the bucket index is `h(key) % size`.
- Each regular expression is an uninterpreted predicate: `Search` for the HTTP patterns,
  `Matcher` (rule, line → optional captures) for the SSH patterns.
- Path-traversal patterns are plain literals, so they are modelled concretely as substring
  tests.
- The firewall's answer is a boolean parameter.
- Clock readings are `Stamp` strings without line breaks.
- The record file is its text, or `None` when it does not exist.

Modules: `Wrappers` (Option), `Chains`, `LinkedLists`, `HashTables`, `Queues`, `Levels`,
`Detectors`, `HttpDetectors`, `LogParsers`, `Blockers`, `Ids`.

## Model

| member | source | states |
|---|---|---|
| Chains.Snoc | src/custom_structures.py:22-39 | linking a node after the last one appends exactly that element, adds one to the length, and the new node becomes the last node |
| Chains.LengthIsElementCount | src/custom_structures.py:93-94 | the node count of a chain is the number of its elements |
| Chains.LastNodeHoldsLastElement | src/custom_structures.py:250-276 | the last node is absent iff the chain is empty, otherwise it holds the last element and ends the chain |
| LinkedLists.Empty | src/custom_structures.py:18-20 | a new list is well formed, with no head, size 0 and no elements |
| LinkedLists.Append | src/custom_structures.py:22-39 | `append` makes the contents the old contents plus `data` at the end, raises `size` by one and keeps `size` equal to the node count |
| LinkedLists.Search | src/custom_structures.py:41-56 | `search` returns true iff the element is among the list's contents |
| LinkedLists.RemoveFirst | src/custom_structures.py:58-80 | the chain walk reports removal iff the element occurs, and then drops exactly its first occurrence; otherwise the chain is returned unchanged |
| LinkedLists.Remove | src/custom_structures.py:58-80 | `remove` returns True iff the element is present; the contents become the part before its first occurrence followed by the part after it, `size` drops by one, and an absent element changes nothing |
| LinkedLists.ToList | src/custom_structures.py:82-91 | `to_list` returns the contents in order |
| LinkedLists.Len | src/custom_structures.py:93-94 | for a well-formed list `len` is the number of elements |
| LinkedLists.AppendThenRemove | src/custom_structures.py:22-80 | removing an element just appended to a list that did not hold it succeeds and restores the old contents |
| HashTables.BucketIndex | src/custom_structures.py:118-128 | every bucket index lies in `[0, size)` |
| HashTables.Empty | src/custom_structures.py:107-116 | a new table is well formed, holds no pair and answers `None` for every key |
| HashTables.Get | src/custom_structures.py:152-170 | `get(k)` returns a value paired with `k` in `k`'s bucket, and `None` iff that bucket holds no pair with key `k` |
| HashTables.Insert | src/custom_structures.py:130-150 | after `insert(k, v)`, `get(k)` is `v`, other keys keep their values, `count` grows by one only for a new key, and well-formedness is kept |
| HashTables.Delete | src/custom_structures.py:172-192 | `delete` returns True iff the key was present; then the key is gone and `count` drops by one; other keys are unaffected; an absent key changes nothing |
| HashTables.Contains | src/custom_structures.py:194-204 | `contains(k)` holds iff `k` is among the stored keys |
| HashTables.KeysAreStoredKeys | src/custom_structures.py:152-170 | `get(k)` is `Some(v)` iff the pair `(k, v)` is stored, and is `None` iff no pair has key `k` |
| HashTables.CountIsPairCount | src/custom_structures.py:229-230 | `count` equals the number of stored pairs, and no key is stored twice |
| HashTables.CountIsKeyCount | src/custom_structures.py:206-212 | `count` equals the number of distinct keys |
| HashTables.Items | src/custom_structures.py:222-227 | `items` lists every bucket's pairs, bucket by bucket |
| HashTables.Keys | src/custom_structures.py:206-212 | `keys` lists the keys of those pairs in the same order |
| Queues.Empty | src/custom_structures.py:250-253 | a new queue is well formed, with no front or rear, size 0 and no elements |
| Queues.IsEmpty | src/custom_structures.py:255-257 | on a well-formed queue `is_empty` holds iff `size` is 0, iff the contents are empty, iff `rear` is absent |
| Queues.Enqueue | src/custom_structures.py:259-276 | `enqueue` appends the element at the back, grows `size` by one, and keeps `size` equal to the node count and `rear` on the last node |
| Queues.Dequeue | src/custom_structures.py:278-296 | `dequeue` returns `None` and changes nothing iff the queue is empty; otherwise it returns the first element, the contents lose exactly that element and `size` drops by one |
| Queues.Peek | src/custom_structures.py:298-307 | `peek` returns what `dequeue` would return, without changing the queue |
| Queues.ToList | src/custom_structures.py:309-318 | `to_list` returns the contents front to back |
| Queues.Len | src/custom_structures.py:320-321 | on a well-formed queue `len` is the number of elements |
| Queues.FirstInFirstOut | src/custom_structures.py:243-248 | enqueuing values into an empty queue and dequeuing until empty gives them back in the same order |
| Queues.DequeueAll | src/custom_structures.py:278-296 | repeated `dequeue` until empty yields the contents in order |
| Queues.EnqueueAll | src/custom_structures.py:259-276 | repeated `enqueue` appends the values in order |
| Detectors.NewDetector | src/detector.py:10-18 | a new detector keeps the given threshold, has an empty history, and its summary is total 0 with no levels |
| Detectors.ThreatLevel | src/detector.py:45-62 | CRITICAL iff at least 20, HIGH iff 10 to 19, MEDIUM iff 7 to 9, LOW below 7; the tier is the number of breakpoints reached |
| Detectors.LevelMonotone | src/detector.py:55-62 | a larger count never gets a lower tier |
| Detectors.Surface | src/detector.py:30-43 | every returned threat comes from an entry meeting the threshold, carrying its address, count and level; every such entry yields a threat |
| Detectors.SurfaceAppend | src/detector.py:32-40 | the filter works entry by entry in input order: the threats of two runs of entries are the threats of each, concatenated |
| Detectors.SurfaceDistinct | src/detector.py:30-43 | attempt counts with distinct addresses, as a dict's keys are, give threats with distinct addresses |
| Detectors.DetectThreats | src/detector.py:20-43 | `detect_threats` returns the filtered threats and the history grows by exactly those threats |
| Detectors.IsMalicious | src/detector.py:64-75 | `is_malicious(ip, c)` holds iff the filter keeps `(ip, c)`, that is iff `detect_threats` would report it |
| Detectors.CountLevelsSum | src/detector.py:95-97 | the four per-level counts of a history add up to its length |
| Detectors.Tally | src/detector.py:90-97 | the tally has a level iff that level occurs, with its number of occurrences |
| Detectors.GetThreatSummary | src/detector.py:77-99 | the total is the history's length; per-level counts match the history and sum to the total; an empty history gives total 0 and an empty map |
| HttpDetectors.AnyMatches | src/http_detector.py:56-69 | a category check holds iff some pattern of its list matches |
| HttpDetectors.HasSubstring | src/http_detector.py:86-99 | the substring test holds iff the literal occurs at some position |
| HttpDetectors.DetectPathTraversal | src/http_detector.py:34-39 | path traversal is reported iff the request contains `../`, `..\`, `/etc/passwd` or `/etc/shadow`, case-sensitively |
| HttpDetectors.AttackTypes | src/http_detector.py:127-139 | a category is listed iff its check holds, each at most once, in the order SQL, XSS, path traversal, command injection |
| HttpDetectors.HttpThreatLevel | src/http_detector.py:159-176 | never LOW; CRITICAL iff three or more categories; MEDIUM iff one category that is neither SQL nor command injection; SQL or command injection means at least HIGH |
| HttpDetectors.MoreCategoriesNeverLower | src/http_detector.py:159-176 | adding categories never lowers the severity |
| HttpDetectors.Truncate | src/http_detector.py:149 | the stored request is the input's prefix of length `min(200, length)` |
| HttpDetectors.NewHttpDetector | src/http_detector.py:50-54 | a new detector has no attacks and a tracker that counts them consistently (no address tracked) |
| HttpDetectors.AnalyzeRequest | src/http_detector.py:116-157 | `None` iff no category matches, and then nothing changes; otherwise the attack carries the address, categories, truncated request and level; it is appended once; the address's tracker count rises by exactly one; other addresses keep theirs |
| HttpDetectors.BumpTracker | src/http_detector.py:143-144 | the address's tracker count becomes its old count (0 when absent) plus one, and no other address's count changes |
| HttpDetectors.AnalyzeKeepsValid | src/http_detector.py:141-155 | after each request the tracker counts every address's recorded attacks exactly |
| HttpDetectors.GetAttackSummary | src/http_detector.py:178-201 | `total_attacks` is the number of attacks; `by_type` holds, for each category, the number of its occurrences in the attack list, and only positive counts; with no attacks all is zero and `by_type` empty |
| HttpDetectors.SummaryCounts | src/http_detector.py:178-201 | `total_attacks` is the number of attacks; `unique_ips` is the number of distinct attacking addresses; `by_type[t]` counts the attacks listing `t` |
| HttpDetectors.OccurrencesAreListings | src/http_detector.py:192-195 | the per-type tally counts, for each category, the attacks that list it |
| LogParsers.FirstMatch | src/log_parser.py:193-206 | the first rule that matches wins and gives the address; no address iff no rule matches |
| LogParsers.ExtractAddress | src/log_parser.py:17-30 | rules are tried in the order failed password, invalid user, authentication failure, connection closed; the address is capture 2 for the first two rules and capture 1 for the others |
| LogParsers.Bump | src/log_parser.py:204-205 | a `defaultdict` increment adds the key if needed, raises its count by one and leaves other keys alone |
| LogParsers.ParseLines | src/log_parser.py:179-208 | each address's new count is its number of attributed lines; returned counts are at least 1; the ledger rises by exactly the returned counts and other addresses are unchanged |
| LogParsers.ParseLinesTotal | src/log_parser.py:189-208 | the returned counts sum to the number of matching lines, hence to at most the number of input lines |
| LogParsers.ParseFromTotals | src/log_parser.py:189-208 | the returned counts sum to the number of matched lines, and every returned count is positive |
| LogParsers.OneLine | src/log_parser.py:191-206 | one line changes at most one address, by exactly one; an unmatched line changes nothing |
| LogParsers.LedgerAccumulates | src/log_parser.py:204-205 | two calls leave the ledger as one call over all the lines would |
| LogParsers.AllAttemptsCountLines | src/log_parser.py:220-222 | after `parse_lines` on any sequence of batches, `get_all_attempts` gives each address its old count plus its number of attributed lines across all batches, as one call on all the lines would |
| LogParsers.Reset | src/log_parser.py:224-226 | after `reset`, `get_all_attempts` returns the empty map |
| LogParsers.ResetThenParse | src/log_parser.py:220-226 | after `reset`, the ledger equals what the next call returns |
| Blockers.StripLeft | src/blocker.py:99 | `lstrip` removes exactly a leading run of whitespace |
| Blockers.StripRight | src/blocker.py:99 | `rstrip` removes exactly a trailing run of whitespace |
| Blockers.BeforeBar | src/blocker.py:102 | the text before the first bar is the longest prefix without a bar, and it stops at a bar whenever one exists |
| Blockers.JoinSplitLines | src/blocker.py:96-98 | iterating over the file's lines and joining them gives the text back |
| Blockers.SplitAppend | src/blocker.py:85-86 | appending to a file that ends with a line break adds its own lines after the old ones |
| Blockers.ParseEntry | src/blocker.py:99-103 | a line gives an entry iff it is neither blank nor a `#` comment once stripped; the entry contains no bar |
| Blockers.ParseEntryMeaning | src/blocker.py:99-103 | the entry of any line is a prefix of the stripped line with no bar and no surrounding whitespace, followed only by whitespace up to the first bar or the end |
| Blockers.EntryOfUnique | src/blocker.py:99-103 | that description admits at most one entry per stripped line, so it fixes the text the parser extracts |
| Blockers.GetBlockedIps | src/blocker.py:88-106 | a missing file gives the empty list; otherwise at most one entry per line, none containing a bar |
| Blockers.IsBlocked | src/blocker.py:64-75 | nothing is blocked without a record file, and an address containing a bar never is |
| Blockers.BlockedIffListed | src/blocker.py:64-106 | an address is blocked iff some line of the record file gives it as its entry |
| Blockers.RecordLineRoundTrip | src/blocker.py:84-86 | the line written for a recordable address parses back to that address |
| Blockers.FreshRecordIsEmpty | src/blocker.py:24-26 | a newly created record file lists no address |
| Blockers.NewBlocker | src/blocker.py:11-26 | the constructor creates a header-only file when none exists and leaves an existing one alone |
| Blockers.SaveToFile | src/blocker.py:77-86 | saving a recordable address to a complete file appends exactly that address to the listed ones |
| Blockers.BlockIp | src/blocker.py:28-62 | an already recorded address makes no firewall call and returns True; otherwise one add call is made and the result is its success; only on success is the address appended, exactly once |
| Blockers.BlockTwice | src/blocker.py:40-50 | after a successful block, a second call makes no firewall call; two calls add the drop rule at most once |
| Blockers.SoleEntry | src/blocker.py:96-103 | a recordable address written alone, without a line break, is the record's single entry |
| Blockers.NoBreakSplit | src/blocker.py:96-98 | a non-empty text without line breaks is read as one line |
| Blockers.MergedRecord | src/blocker.py:84-86 | a record line appended to an unterminated entry reads back as one entry, the two addresses run together |
| Blockers.UnterminatedRecordMerges | src/blocker.py:77-86 | as written, blocking a new address after a record whose last line lacks a line break glues the two lines: the old entry is no longer listed and neither is the new address |
| Blockers.UnterminatedRecordReblocks | src/blocker.py:40-50 | as written, on such a record a second block of the same address asks the firewall again, so the drop rule is added twice |
| Blockers.UnterminatedRecordExample | src/blocker.py:77-86 | the same with the record `10.0.0.1` and the address `10.0.0.2` |
| Blockers.StripNewline | src/blocker.py:99 | `strip` gives the same text with or without a trailing line break |
| Blockers.TerminateKeepsEntries | src/blocker.py:96-103 | ending the last line of a record with a line break leaves its entries unchanged |
| Blockers.Terminate | src/blocker.py:85-86 | the record text, ended with a line break if it lacks one: it then ends with one, lists the same addresses, and is unchanged if it already ended with one |
| Blockers.SaveToFileFixed | src/blocker.py:77-86 | the corrected save appends exactly the address to the listed ones, whatever the existing record ends with |
| Blockers.BlockIpFixed | src/blocker.py:28-62 | `block_ip` with the corrected save: the same answers and firewall calls, and on success the address is listed afterwards, appended exactly once, for any existing record |
| Blockers.BlockTwiceFixed | src/blocker.py:40-50 | with the corrected save, a second block after a successful one makes no firewall call, and two calls add the drop rule at most once, for any existing record |
| Blockers.FixedAgreesOnComplete | src/blocker.py:77-86 | on a record ending in a line break, the corrected `block_ip` is exactly the one as written |
| Blockers.UnblockIp | src/blocker.py:108-131 | `unblock_ip` never changes the record file and returns True iff the firewall delete succeeds |
| Blockers.ReblockAfterUnblockSkipsFirewall | src/blocker.py:40-42 | after a successful unblock, blocking the address again returns True without a firewall call |
| Blockers.UnblockIpFixed | src/blocker.py:108-131 | the corrected unblock: on success the address's record lines are removed and every other entry kept in order |
| Blockers.ReblockAfterFixedUnblockCallsFirewall | src/blocker.py:40-55 | with the corrected unblock, blocking the address again asks the firewall |
| Ids.NewIds | src/main.py:25-55 | a new controller starts with the loop flag cleared, the given threshold and an empty history, and the blocker's existing record lists the same addresses as before |
| Ids.Respond | src/main.py:90-118 | each threat is logged, then saved, once each; for a HIGH or CRITICAL threat the record file becomes the one `block_ip` leaves, otherwise it is unchanged; the calls are exactly one reply: log, save, and for a HIGH or CRITICAL threat the block request followed, on success, by `mark_as_blocked`, `save_blocked_ip` and `log_block` carrying the threat's address, level and attempt count, or on failure by an error log |
| Ids.ScanAndRespond | src/main.py:74-120 | an empty attempt map causes no activity; the saved threats are the detector's threats in order, and the logged threats are the same; the detector history grows by exactly them; blocks are requested exactly for the HIGH or CRITICAL ones; the trace is a run of replies, so every "blocked" call carries its threat's own level and attempt count |
| Ids.ScanRecords | src/main.py:107-115 | a scan keeps recorded addresses recorded, and every address reported blocked is in the record afterwards |
| Ids.RespondBlocks | src/main.py:101-115 | for one threat with a recordable address: the record gains the address exactly when the threat is HIGH or CRITICAL, the address was not listed and the firewall accepts; no other address's listing changes; a block request reports whether the address was listed or the firewall accepted |
| Ids.RespondAllRequests | src/main.py:90-115 | for threats with distinct, recordable addresses, every block request in the trace reports whether its address was listed before the batch or the firewall accepted it |
| Ids.RespondAllRecord | src/main.py:90-115 | for threats with distinct, recordable addresses, the record afterwards lists what it listed before followed by the HIGH or CRITICAL addresses that were not listed and that the firewall accepted, in threat order |
| Ids.RespondAllBlocks | src/main.py:90-115 | both of the above for one batch |
| Ids.ScanBlocks | src/main.py:74-120 | for one scan over attempt counts with distinct, recordable addresses: each block request reports whether the address was listed or the firewall accepted it, and the record gains exactly the unlisted, firewall-accepted addresses with at least ten attempts and at least the threshold, in input order |
| Ids.RequestedAreTenOrMore | src/main.py:107-111 | the blocker is asked about exactly the entries reaching both the threshold and ten attempts, in input order |
| Ids.Stop | src/main.py:122-139 | `stop` clears the running flag and reports the detector's summary |
| Ids.OneReply | src/main.py:101-118 | a trace of the response grammar that saves exactly one threat is the reply to that threat, payloads included |
| Ids.WrongPayloadRejected | src/main.py:111-114 | a successful block whose `save_blocked_ip` or `log_block` call carries another level or attempt count is not a trace of the grammar |
| Ids.Run | src/main.py:66-72 | the loop's trace obeys the response grammar, and the detector's history grows by exactly the threats it saves |
| Ids.RunStops | src/main.py:57-72 | the loop ends not running when an interrupt arrives, and without one leaves the flag as it was |
| Ids.RunStopsOnInterrupt | src/main.py:57-72 | an interrupt anywhere in the cycles leaves the controller stopped |
| Ids.RunKeepsRunning | src/main.py:66-72 | scans alone leave the running flag as it was |
| Ids.Start | src/main.py:57-72 | `start` ends with the flag cleared iff an interrupt occurs |
| Ids.InterruptEndsMonitoring | src/main.py:66-72 | nothing after an interrupt has any effect |

## Left out

- Log acquisition (journal and file readers, `read_new_entries`, `scan_once`) is subprocess and
  file I/O. The controller takes the attempt map as an input instead.
- `src/main.py` reads `parser.attempts`, which the parser does not define, and passes
  `interval=` to a constructor that does not accept it. The model assumes the intended map of
  attempt counts arrives.
- The sleep between scans, argument handling and all console output are
  not modelled.
- `src/database.py`, `src/file_logger.py` and `src/gui.py` are not part of this model. The
  database and logger calls of `scan_and_respond` appear as events. The `log_system` calls of
  `__init__`, `start` and `stop` have no event: they only write status text and take part in
  no decision. The database's statistics in `stop`'s report are not modelled.
- The iptables commands are not modelled; each call is an `AddDropRule`/`DeleteDropRule`
  event carrying the parameter outcome. `list_iptables_rules` only prints the rule table and
  is left out.
- Timestamps (`datetime.now()`) are dropped from threat and attack records.
- The concrete regular-expression engine is abstract, apart from the path-traversal literals.
- The hash table's `values()` and `__str__`, and the `__str__` methods of the containers, are
  not modelled.
- HashTables.Empty: requires a positive size. With a size of 0 or less, Python fails on the
  first insert or lookup: `hash(key) % 0` raises, and a negative size leaves the bucket list
  empty, so indexing it raises.
- Ids.Run: the SIGINT handler (`stop()` then `sys.exit(0)`) is modelled as an `Interrupt`
  between whole scans only. An interrupt in the middle of `scan_and_respond`, which leaves a
  reply cut short, is not modelled.
- HashTables.Contains: stated for tables whose stored values are never `None`. In Python
  `contains` is `get(k) is not None`, so a key mapped to `None` counts as absent.
- Queues.Dequeue: values are never `None`. Python cannot tell a dequeued `None` from an empty
  queue.
- LogParsers.ExtractAddress: the capture groups are whatever the abstract matcher returns.
  That the captured text is a dotted-quad address is not modelled.
- LogParsers.ParseLines: Python's `dict` iteration order of the ledgers is not modelled; the
  ledgers are maps.
- Blockers.SplitAppend: Python's universal-newline translation of `\r` and `\r\n` is not
  modelled.
- Blockers.GetBlockedIps: lines end only at `\n`. Python's universal newlines also end a line
  at a lone `\r`, so a record holding one lists different entries in Python.
- Blockers.SaveToFile: the round trip is stated for recordable addresses and a record whose
  text ends in a line break. Every line the blocker writes ends in one, but `__init__` keeps an
  existing record file as it is, and one whose last line lacks a line break breaks the round
  trip (see Findings and Blockers.SaveToFileFixed).
- Blockers.BlockIp: "listed afterwards" and "appended exactly once" are stated for a record
  ending in a line break, for the same reason (Blockers.UnterminatedRecordMerges shows the
  failure; Blockers.BlockIpFixed drops the condition).
- Blockers.BlockTwice: stated for a record ending in a line break, for the same reason
  (Blockers.UnterminatedRecordReblocks shows the failure; Blockers.BlockTwiceFixed drops the
  condition).
- Ids.ScanRecords: stated for a record ending in a line break. The controller calls the
  blocker as written; on such records it behaves exactly like the corrected one
  (Blockers.FixedAgreesOnComplete).
- Ids.RespondAllBlocks: stated for a record ending in a line break, as Ids.ScanRecords, and
  for threats with distinct addresses. The threats come from a dict of attempt counts, so
  their addresses are distinct (Detectors.SurfaceDistinct); with repeats, a later block
  request would see the record as the earlier one left it.
- Ids.ScanBlocks: stated for a record ending in a line break and attempt counts with
  distinct addresses, as Ids.RespondAllBlocks.
- Blockers.BlockIp: an exception raised by the firewall command behaves like a failed
  command (`firewallOk` false, record unchanged). I/O errors on the record file are not
  modelled.
- `unblock_ip` asks the firewall even for an address that was never blocked, and the model
  does the same. No `unblockAll`, `flush` or rotation-safe log reader exists in `src/`.
- Tests that contradict the code are not encoded as properties: `get_ip_attempts`,
  `/download|ls` as command injection, and an unclosed `<script>` as XSS.
- `temp_main_fix.py` duplicates the controller logic and is not modelled separately.

## Findings

| source | as written | input that shows it | evidently intended | confidence | as-written member | corrected member |
|---|---|---|---|---|---|---|
| src/blocker.py:108-131 | `unblock_ip` deletes the drop rule but leaves the address's line in the record file, and `block_ip` trusts that file | block `10.0.0.5` (firewall succeeds), then unblock it (firewall succeeds), then block it again: the third call returns True with no firewall call, so the address stays unblocked | a successful unblock also removes the address's record lines, so a later block adds the drop rule again | not executed | Blockers.ReblockAfterUnblockSkipsFirewall | Blockers.UnblockIpFixed |
| src/blocker.py:84-86 | `_save_to_file` appends its line after whatever the record ends with, and `__init__` (src/blocker.py:24-26) keeps an existing record file as it is | a record file holding `10.0.0.1` with no final line break; block `10.0.0.2` with the firewall succeeding: the file becomes one line, `10.0.0.110.0.0.2 \| <time>`, so neither address is listed, and blocking `10.0.0.2` again adds a second drop rule | each record line starts on a line of its own, so the blocked address is listed and a second block makes no firewall call | not executed | Blockers.UnterminatedRecordExample | Blockers.SaveToFileFixed |

The controller keeps the blocker as written. Its claims about the record file are stated for a
record ending in a line break, where the corrected blocker behaves the same
(Blockers.FixedAgreesOnComplete).

=== FILE: blocker.dfy ===
/** The blocker: a firewall "drop" rule per offending address, and a plain-text record file
    of blocked addresses, one `ip | timestamp` line each, with `#` lines as comments. The
    firewall command is not modelled: its outcome is the parameter `firewallOk`, and each
    operation returns the firewall calls it made. The record file is its text, or `None`
    when it does not exist. */
module Blockers {
  import opened Wrappers

  /** A formatted clock reading (`strftime` or `str(datetime.now())`): never a line break. */
  type Stamp = s: string | '\n' !in s witness ""

  /** One firewall invocation and whether it succeeded. */
  datatype FirewallCall = AddDropRule(ip: string, succeeded: bool) | DeleteDropRule(ip: string, succeeded: bool)

  /** The record file after an operation, the operation's return value, and its firewall calls. */
  datatype Outcome = Outcome(file: Option<string>, ok: bool, calls: seq<FirewallCall>)

  // ----- text helpers with Python's semantics -----

  /** `str.isspace` for one character. */
  predicate IsSpace(c: char) {
    var n := c as int;
    n == 32 || 9 <= n <= 13 || 28 <= n <= 31 || n == 0x85 || n == 0xA0 || n == 0x1680
    || 0x2000 <= n <= 0x200A || n == 0x2028 || n == 0x2029 || n == 0x202F || n == 0x205F || n == 0x3000
  }

  /** `s.lstrip()`: the suffix left after dropping leading whitespace. */
  function StripLeft(s: string): (r: string)
    ensures |r| <= |s| && r == s[|s| - |r|..]
    ensures forall k :: 0 <= k < |s| - |r| ==> IsSpace(s[k])
    ensures r == [] || !IsSpace(r[0])
  {
    if |s| > 0 && IsSpace(s[0]) then
      var r := StripLeft(s[1..]);
      assert s[1..][|s| - 1 - |r|..] == s[|s| - |r|..];
      r
    else s
  }

  /** `s.rstrip()`: the prefix left after dropping trailing whitespace. */
  function StripRight(s: string): (r: string)
    ensures |r| <= |s| && r == s[..|r|]
    ensures forall k :: |r| <= k < |s| ==> IsSpace(s[k])
    ensures r == [] || !IsSpace(r[|r| - 1])
  {
    if |s| > 0 && IsSpace(s[|s| - 1]) then
      var r := StripRight(s[..|s| - 1]);
      assert s[..|s| - 1][..|r|] == s[..|r|];
      r
    else s
  }

  /** `s.strip()`. */
  function Strip(s: string): string {
    StripRight(StripLeft(s))
  }

  /** `s.split('|')[0]`: the text before the first `|`, or all of `s`. */
  function BeforeBar(s: string): (r: string)
    ensures '|' !in r
    ensures |r| <= |s| && r == s[..|r|]
    ensures |r| < |s| ==> s[|r|] == '|'
  {
    if |s| == 0 || s[0] == '|' then ""
    else
      var r := BeforeBar(s[1..]);
      assert [s[0]] + s[1..][..|r|] == s[..|r| + 1];
      [s[0]] + r
  }

  /** The length of the first line of `t` as a file iteration yields it: up to and including
      the first line break, or all of `t`. */
  function FirstLineLength(t: string): (n: nat)
    ensures n <= |t| && (n == 0 <==> |t| == 0)
  {
    if |t| == 0 then 0
    else if t[0] == '\n' then 1
    else 1 + FirstLineLength(t[1..])
  }

  /** The first line ends at the first line break, or at the end of the text. */
  lemma {:induction false} FirstLineShape(t: string)
    ensures var n := FirstLineLength(t);
            && (forall k :: 0 <= k < n - 1 ==> t[k] != '\n')
            && (n < |t| ==> t[n - 1] == '\n')
  {
    if |t| > 0 && t[0] != '\n' {
      FirstLineShape(t[1..]);
      assert forall k :: 1 <= k < |t| ==> t[k] == t[1..][k - 1];
    }
  }

  /** `for line in f`: the lines of a text, each keeping its line break. Python's translation
      of `\r` and `\r\n` line ends is not modelled. */
  function SplitLines(t: string): seq<string>
    decreases |t|
  {
    if |t| == 0 then []
    else
      var n := FirstLineLength(t);
      [t[..n]] + SplitLines(t[n..])
  }

  /** Concatenation of lines: the inverse of `SplitLines`. */
  function Join(lines: seq<string>): string {
    if |lines| == 0 then "" else lines[0] + Join(lines[1..])
  }

  /** Joining the lines of a text gives the text back. */
  lemma {:induction false} JoinSplitLines(t: string)
    ensures Join(SplitLines(t)) == t
    decreases |t|
  {
    if |t| > 0 {
      var n := FirstLineLength(t);
      var lines := SplitLines(t);
      SplitStep(t);
      assert lines[0] == t[..n] && lines[1..] == SplitLines(t[n..]);
      assert Join(lines) == t[..n] + Join(SplitLines(t[n..]));
      JoinSplitLines(t[n..]);
      assert t == t[..n] + t[n..];
    }
  }

  /** A text is complete when it is empty or ends with a line break: appending to it starts a
      new line. Every write of the blocker keeps the file complete. */
  predicate Complete(file: Option<string>) {
    file.None? || |file.value| == 0 || file.value[|file.value| - 1] == '\n'
  }

  /** One whole line: a line break at its end and nowhere else. */
  predicate WholeLine(l: string) {
    |l| > 0 && l[|l| - 1] == '\n' && forall k :: 0 <= k < |l| - 1 ==> l[k] != '\n'
  }

  lemma FirstLineOfAppend(a: string, b: string)
    requires |a| > 0 && a[|a| - 1] == '\n'
    ensures FirstLineLength(a + b) == FirstLineLength(a)
    decreases |a|
  {
    if a[0] != '\n' {
      assert (a + b)[1..] == a[1..] + b;
      FirstLineOfAppend(a[1..], b);
    }
  }

  /** Lines of a complete text followed by more text are the lines of each part. */
  lemma {:induction false} SplitAppend(a: string, b: string)
    requires Complete(Some(a))
    ensures SplitLines(a + b) == SplitLines(a) + SplitLines(b)
    decreases |a|
  {
    if |a| == 0 {
      assert a + b == b;
    } else {
      var n := FirstLineLength(a);
      SplitAppendStep(a, b);
      SplitAppend(a[n..], b);
    }
  }

  /** One step of `SplitAppend`: the first line of `a + b` is that of `a`. */
  lemma SplitAppendStep(a: string, b: string)
    requires Complete(Some(a)) && |a| > 0
    ensures var n := FirstLineLength(a);
            && SplitLines(a + b) == [a[..n]] + SplitLines(a[n..] + b)
            && SplitLines(a) == [a[..n]] + SplitLines(a[n..])
            && Complete(Some(a[n..]))
  {
    var ab := a + b;
    var n := FirstLineLength(a);
    FirstLineOfAppend(a, b);
    assert ab[..n] == a[..n];
    assert ab[n..] == a[n..] + b;
    SplitStep(ab);
    SplitStep(a);
    if n < |a| {
      assert a[n..][|a[n..]| - 1] == a[|a| - 1];
    }
  }

  lemma SplitStep(t: string)
    requires |t| > 0
    ensures var n := FirstLineLength(t); SplitLines(t) == [t[..n]] + SplitLines(t[n..])
  {
  }

  /** A whole line splits into itself. */
  lemma SplitWholeLine(l: string)
    requires WholeLine(l)
    ensures SplitLines(l) == [l]
  {
    var n := FirstLineLength(l);
    FirstLineShape(l);
    assert l[..n] == l;
    assert l[n..] == "";
    assert SplitLines(l[n..]) == [];
  }

  /** Whole lines split back into the same lines after joining. */
  lemma {:induction false} SplitJoin(lines: seq<string>)
    requires forall l :: l in lines ==> WholeLine(l)
    ensures SplitLines(Join(lines)) == lines
    ensures Complete(Some(Join(lines)))
  {
    if |lines| > 0 {
      SplitJoin(lines[1..]);
      SplitWholeLine(lines[0]);
      SplitAppend(lines[0], Join(lines[1..]));
    }
  }

  /** The lines of a complete text are whole lines. */
  lemma {:induction false} CompleteSplitsWhole(t: string)
    requires Complete(Some(t))
    ensures forall l :: l in SplitLines(t) ==> WholeLine(l)
    decreases |t|
  {
    if |t| > 0 {
      var n := FirstLineLength(t);
      SplitStep(t);
      FirstLineShape(t);
      assert WholeLine(t[..n]);
      assert Complete(Some(t[n..])) by {
        if n < |t| {
          assert t[n..][|t[n..]| - 1] == t[|t| - 1];
        }
      }
      CompleteSplitsWhole(t[n..]);
    }
  }

  // ----- the record file -----

  /** `_save_to_file`'s line. */
  function RecordLine(ip: string, ts: Stamp): string {
    ip + " | " + ts + "\n"
  }

  /** The header the constructor writes into a new record file. */
  function HeaderLine(ts: Stamp): string {
    "# Blocked IPs - Started " + ts + "\n"
  }

  /** The body of `get_blocked_ips`' loop for one line: blank and `#` lines are skipped, any
      other line gives its stripped text before the first `|`. */
  function ParseEntry(line: string): (r: Option<string>)
    ensures r.Some? <==> Strip(line) != "" && Strip(line)[0] != '#'
    ensures r.Some? ==> '|' !in r.value
  {
    var t := Strip(line);
    if t == "" || t[0] == '#' then None
    else
      var ip := Strip(BeforeBar(t));
      StripKeepsNoBar(BeforeBar(t));
      Some(ip)
  }

  /** Stripping adds no character, so a bar-free text stays bar-free. */
  lemma StripKeepsNoBar(b: string)
    requires '|' !in b
    ensures '|' !in Strip(b)
  {
    var l := StripLeft(b);
    var ip := StripRight(l);
    forall k | 0 <= k < |ip|
      ensures ip[k] != '|'
    {
      var j := |b| - |l| + k;
      assert ip[k] == l[k] == b[j];
      assert b[j] in b;
    }
  }

  /** What `line.strip().split('|')[0].strip()` means for a stripped line `t` that gives an
      entry: `v` starts `t`, carries no bar and no surrounding whitespace, and between `v` and
      the first bar (or the end) `t` holds only whitespace. */
  predicate EntryOf(t: string, v: string) {
    && |v| <= |t| && v == t[..|v|]
    && '|' !in v
    && (v == [] || (!IsSpace(v[0]) && !IsSpace(v[|v| - 1])))
    && forall k :: |v| <= k < |t| && '|' !in t[..k] ==> IsSpace(t[k]) || t[k] == '|'
  }

  /** The entry a line gives is the one `EntryOf` describes for its stripped text. */
  lemma ParseEntryMeaning(line: string)
    ensures ParseEntry(line).Some? ==> EntryOf(Strip(line), ParseEntry(line).value)
  {
    var t := Strip(line);
    if t != "" && t[0] != '#' {
      assert ParseEntry(line) == Some(Strip(BeforeBar(t)));
      StrippedStartsSolid(line);
      EntryOfSolid(t);
    }
  }

  /** A non-empty stripped text starts with a non-whitespace character. */
  lemma StrippedStartsSolid(line: string)
    requires Strip(line) != ""
    ensures !IsSpace(Strip(line)[0])
  {
    var l := StripLeft(line);
    assert Strip(line) == l[..|Strip(line)|];
  }

  /** For a text starting with non-whitespace, stripping the part before the first bar gives
      the entry `EntryOf` describes. */
  lemma EntryOfSolid(t: string)
    requires t != "" && !IsSpace(t[0])
    ensures EntryOf(t, Strip(BeforeBar(t)))
  {
    var b := BeforeBar(t);
    var ip := SolidStrip(b, t);
    EntryPrefix(t, b, ip);
    EntryTail(t, b, ip);
    EntryOfParts(t, ip);
  }

  lemma EntryOfParts(t: string, v: string)
    requires |v| <= |t| && v == t[..|v|] && '|' !in v
    requires v == [] || (!IsSpace(v[0]) && !IsSpace(v[|v| - 1]))
    requires forall k :: |v| <= k < |t| && '|' !in t[..k] ==> IsSpace(t[k]) || t[k] == '|'
    ensures EntryOf(t, v)
  {
  }

  /** Stripping a prefix of a text that starts with non-whitespace only strips on the right. */
  lemma SolidStrip(b: string, t: string) returns (ip: string)
    requires t != "" && !IsSpace(t[0]) && b == BeforeBar(t)
    ensures ip == Strip(b) == StripRight(b)
  {
    if b != [] {
      assert b[0] == t[0];
    }
    assert StripLeft(b) == b;
    ip := StripRight(b);
  }

  /** The right-stripped part before the bar is a bar-free prefix of `t` with no surrounding
      whitespace. */
  lemma EntryPrefix(t: string, b: string, ip: string)
    requires t != "" && !IsSpace(t[0]) && b == BeforeBar(t) && ip == StripRight(b)
    ensures |ip| <= |t| && ip == t[..|ip|] && '|' !in ip
    ensures ip == [] || (!IsSpace(ip[0]) && !IsSpace(ip[|ip| - 1]))
  {
    assert ip == b[..|ip|] && b == t[..|b|];
    assert '|' !in ip by {
      assert forall j :: 0 <= j < |ip| ==> ip[j] == b[j];
    }
    if ip != [] {
      assert ip[0] == t[0];
    }
  }

  /** Between the right-stripped part and the first bar there is only whitespace. */
  lemma EntryTail(t: string, b: string, ip: string)
    requires b == BeforeBar(t) && ip == StripRight(b)
    ensures forall k :: |ip| <= k < |t| && '|' !in t[..k] ==> IsSpace(t[k]) || t[k] == '|'
  {
    if |b| < |t| {
      assert forall k :: |b| < k <= |t| ==> t[..k][|b|] == '|';
    }
    forall k | |ip| <= k < |t| && '|' !in t[..k]
      ensures IsSpace(t[k]) || t[k] == '|'
    {
      if k < |b| {
        assert b[k] == t[k];
      }
    }
  }

  /** `EntryOf` fixes the entry: a stripped line has at most one. */
  lemma EntryOfUnique(t: string, v: string, w: string)
    requires EntryOf(t, v) && EntryOf(t, w)
    ensures v == w
  {
    if |v| < |w| {
      EntryTailIsSpace(t, v, w);
    } else if |w| < |v| {
      EntryTailIsSpace(t, w, v);
    }
  }

  /** Past an entry and before any bar, a bar-free prefix of the line ends in whitespace. */
  lemma EntryTailIsSpace(t: string, v: string, w: string)
    requires EntryOf(t, v) && |v| < |w| <= |t| && w == t[..|w|] && '|' !in w
    ensures IsSpace(w[|w| - 1])
  {
    var k := |w| - 1;
    assert '|' !in t[..k] by {
      assert forall j :: 0 <= j < k ==> t[..k][j] == w[j];
    }
    assert t[k] == w[k];
  }

  /** The entries of `lines`, in order. */
  function Entries(lines: seq<string>): seq<string> {
    if |lines| == 0 then []
    else
      match ParseEntry(lines[0])
      case None => Entries(lines[1..])
      case Some(ip) => [ip] + Entries(lines[1..])
  }

  lemma {:induction false} EntriesAppend(a: seq<string>, b: seq<string>)
    ensures Entries(a + b) == Entries(a) + Entries(b)
  {
    if |a| == 0 {
      assert a + b == b;
    } else {
      assert (a + b)[0] == a[0] && (a + b)[1..] == a[1..] + b;
      EntriesAppend(a[1..], b);
    }
  }

  /** An address is among the entries of `lines` iff some line gives it. */
  lemma InEntries(lines: seq<string>, ip: string)
    ensures ip in Entries(lines) <==> exists l :: l in lines && ParseEntry(l) == Some(ip)
  {
    if ip in Entries(lines) {
      var l := EntryHasLine(lines, ip);
    }
    if exists l :: l in lines && ParseEntry(l) == Some(ip) {
      var l :| l in lines && ParseEntry(l) == Some(ip);
      LineGivesEntry(lines, l, ip);
    }
  }

  lemma {:induction false} EntryHasLine(lines: seq<string>, ip: string) returns (l: string)
    requires ip in Entries(lines)
    ensures l in lines && ParseEntry(l) == Some(ip)
  {
    assert |lines| > 0;
    EntriesStep(lines);
    if ip in EntryHead(lines[0]) {
      l := lines[0];
    } else {
      l := EntryHasLine(lines[1..], ip);
    }
  }

  /** The entries one line contributes. */
  function EntryHead(line: string): seq<string> {
    match ParseEntry(line)
    case None => []
    case Some(v) => [v]
  }

  /** `Entries` of a non-empty sequence of lines, one step unfolded. */
  lemma EntriesStep(lines: seq<string>)
    requires |lines| > 0
    ensures Entries(lines) == EntryHead(lines[0]) + Entries(lines[1..])
  {
  }

  lemma {:induction false} LineGivesEntry(lines: seq<string>, l: string, ip: string)
    requires l in lines && ParseEntry(l) == Some(ip)
    ensures ip in Entries(lines)
  {
    EntriesStep(lines);
    if l != lines[0] {
      LineGivesEntry(lines[1..], l, ip);
    }
  }

  /** No more entries than lines, and none contains a bar. */
  lemma {:induction false} EntriesShape(lines: seq<string>)
    ensures |Entries(lines)| <= |lines|
    ensures forall x :: x in Entries(lines) ==> '|' !in x
  {
    if |lines| > 0 {
      EntriesShape(lines[1..]);
    }
  }

  /** `get_blocked_ips`: a missing file gives the empty list; otherwise one bar-free entry per
      line at most. */
  function GetBlockedIps(file: Option<string>): (r: seq<string>)
    ensures file.None? ==> r == []
    ensures file.Some? ==> |r| <= |SplitLines(file.value)|
    ensures forall x :: x in r ==> '|' !in x
  {
    match file
    case None => []
    case Some(text) =>
      EntriesShape(SplitLines(text));
      Entries(SplitLines(text))
  }

  /** `_is_blocked`: nothing is blocked without a record file, and an address holding a bar
      never is, since entries stop at the first bar. */
  function IsBlocked(file: Option<string>, ip: string): (r: bool)
    ensures file.None? ==> !r
    ensures '|' in ip ==> !r
  {
    ip in GetBlockedIps(file)
  }

  /** An address is blocked iff some line of the record file gives it as its entry. */
  lemma BlockedIffListed(text: string, ip: string)
    ensures IsBlocked(Some(text), ip) <==> exists l :: l in SplitLines(text) && ParseEntry(l) == Some(ip)
  {
    InEntries(SplitLines(text), ip);
  }

  /** The addresses for which the written line reads back as the same address: non-empty, no
      `|` or line break, not starting with `#`, no surrounding whitespace. Every address the
      log parser extracts (four dot-separated digit groups) is one. */
  predicate Recordable(ip: string) {
    && |ip| > 0 && '|' !in ip && '\n' !in ip && ip[0] != '#'
    && !IsSpace(ip[0]) && !IsSpace(ip[|ip| - 1])
  }

  /** Stripping trailing whitespace never eats into a prefix ending in a non-space. */
  lemma {:induction false} StripRightKeepsPrefix(a: string, b: string)
    requires |a| > 0 && !IsSpace(a[|a| - 1])
    ensures StripRight(a + b) == a + StripRight(b)
    decreases |b|
  {
    if |b| == 0 {
      assert a + b == a;
    } else if IsSpace(b[|b| - 1]) {
      assert (a + b)[..|a + b| - 1] == a + b[..|b| - 1];
      StripRightKeepsPrefix(a, b[..|b| - 1]);
    }
  }

  /** Round trip: the line written for a recordable address reads back as that address. */
  lemma {:induction false} RecordLineRoundTrip(ip: string, ts: Stamp)
    requires Recordable(ip)
    ensures ParseEntry(RecordLine(ip, ts)) == Some(ip)
    ensures WholeLine(RecordLine(ip, ts))
  {
    var b := " " + ts + "\n";
    var t := StripRecordLine(ip, ts);
    assert t[0] == ip[0];
    BeforeBarOfPrefix(ip + " ", StripRight(b));
    StripAddressSpace(ip);
    RecordLineIsWhole(ip, ts);
  }

  /** Stripping a record line keeps everything up to the bar. */
  lemma StripRecordLine(ip: string, ts: Stamp) returns (t: string)
    requires Recordable(ip)
    ensures t == Strip(RecordLine(ip, ts))
    ensures t == (ip + " ") + "|" + StripRight(" " + ts + "\n")
  {
    var a := ip + " |";
    var b := " " + ts + "\n";
    var line := RecordLine(ip, ts);
    assert line == a + b;
    assert line[0] == ip[0];
    assert StripLeft(line) == line;
    StripRightKeepsPrefix(a, b);
    t := Strip(line);
    assert a + StripRight(b) == (ip + " ") + "|" + StripRight(b);
  }

  lemma StripAddressSpace(ip: string)
    requires Recordable(ip)
    ensures Strip(ip + " ") == ip
  {
    var s := ip + " ";
    assert s[0] == ip[0];
    assert StripLeft(s) == s;
    assert s[..|s| - 1] == ip;
    assert StripRight(ip) == ip;
  }

  lemma RecordLineIsWhole(ip: string, ts: Stamp)
    requires '\n' !in ip
    ensures WholeLine(RecordLine(ip, ts))
  {
    var line := RecordLine(ip, ts);
    forall k | 0 <= k < |line| - 1
      ensures line[k] != '\n'
    {
      if k < |ip| {
        assert line[k] == ip[k];
      } else if |ip| + 3 <= k {
        assert line[k] == ts[k - |ip| - 3];
      }
    }
  }

  lemma {:induction false} BeforeBarOfPrefix(x: string, rest: string)
    requires '|' !in x
    ensures BeforeBar(x + "|" + rest) == x
  {
    if |x| > 0 {
      assert (x + "|" + rest)[1..] == x[1..] + "|" + rest;
      BeforeBarOfPrefix(x[1..], rest);
      assert [x[0]] + x[1..] == x;
    }
  }

  /** A header line is a comment. */
  lemma HeaderIsComment(ts: Stamp)
    ensures ParseEntry(HeaderLine(ts)) == None
    ensures WholeLine(HeaderLine(ts))
  {
    var h := HeaderLine(ts);
    assert h[0] == '#';
    assert StripLeft(h) == h;
    var t := StripRight(h);
    assert t[0] == '#';
    assert forall k :: 0 <= k < |h| - 1 ==> h[k] != '\n' by {
      forall k | 0 <= k < |h| - 1
        ensures h[k] != '\n'
      {
        if 24 <= k { assert h[k] == ts[k - 24]; }
      }
    }
  }

  /** The constructor: create the record file with its header when it does not exist. */
  function NewBlocker(existing: Option<string>, ts: Stamp): (file: Option<string>)
    ensures file.Some?
    ensures existing.None? ==> GetBlockedIps(file) == []
    ensures existing.Some? ==> file == existing
    ensures Complete(existing) ==> Complete(file)
  {
    match existing
    case Some(_) => existing
    case None =>
      FreshRecordIsEmpty(ts);
      Some(HeaderLine(ts))
  }

  /** A freshly written record file lists no address. */
  lemma FreshRecordIsEmpty(ts: Stamp)
    ensures GetBlockedIps(Some(HeaderLine(ts))) == []
  {
    var h := HeaderLine(ts);
    HeaderIsComment(ts);
    SplitWholeLine(h);
    assert [h][0] == h && [h][1..] == [];
    assert Entries([h]) == Entries([]);
  }

  /** `_save_to_file`: append one record line (appending creates a missing file). */
  function SaveToFile(file: Option<string>, ip: string, ts: Stamp): (r: Option<string>)
    ensures r.Some? && Complete(r)
    ensures Recordable(ip) && Complete(file) ==> GetBlockedIps(r) == GetBlockedIps(file) + [ip]
  {
    var text := match file case None => "" case Some(t) => t;
    var r := Some(text + RecordLine(ip, ts));
    SaveFacts(file, ip, ts);
    r
  }

  lemma SaveFacts(file: Option<string>, ip: string, ts: Stamp)
    ensures var text := match file case None => "" case Some(t) => t;
            Recordable(ip) && Complete(file) ==> GetBlockedIps(Some(text + RecordLine(ip, ts))) == GetBlockedIps(file) + [ip]
  {
    var text := match file case None => "" case Some(t) => t;
    if Recordable(ip) && Complete(file) {
      var line := RecordLine(ip, ts);
      RecordLineRoundTrip(ip, ts);
      AppendWholeLine(text, line);
      assert SplitLines("") == [];
    }
  }

  /** Appending one whole line to a complete text appends its entry, if any. */
  lemma AppendWholeLine(text: string, line: string)
    requires Complete(Some(text)) && WholeLine(line)
    ensures ParseEntry(line).Some? ==> Entries(SplitLines(text + line)) == Entries(SplitLines(text)) + [ParseEntry(line).value]
    ensures ParseEntry(line).None? ==> Entries(SplitLines(text + line)) == Entries(SplitLines(text))
  {
    SplitAppend(text, line);
    SplitWholeLine(line);
    EntriesAppend(SplitLines(text), [line]);
    assert [line][1..] == [];
  }

  // ----- blocking -----

  /** `block_ip`: an address already in the record is reported blocked without touching the
      firewall; otherwise the firewall is asked to drop it, and only on success is the address
      recorded. */
  function BlockIp(file: Option<string>, ip: string, firewallOk: bool, ts: Stamp): (r: Outcome)
    ensures IsBlocked(file, ip) ==> r.ok && r.calls == [] && r.file == file
    ensures !IsBlocked(file, ip) ==> r.calls == [AddDropRule(ip, firewallOk)] && r.ok == firewallOk
    ensures !r.ok ==> r.file == file
    ensures r.ok && Recordable(ip) && Complete(file) ==> IsBlocked(r.file, ip)
    ensures !IsBlocked(file, ip) && firewallOk && Recordable(ip) && Complete(file)
            ==> GetBlockedIps(r.file) == GetBlockedIps(file) + [ip]
    ensures Complete(file) ==> Complete(r.file)
  {
    if IsBlocked(file, ip) then Outcome(file, true, [])
    else if firewallOk then Outcome(SaveToFile(file, ip, ts), true, [AddDropRule(ip, true)])
    else Outcome(file, false, [AddDropRule(ip, false)])
  }

  /** The number of successful "add drop rule" calls for `ip`. */
  function RulesAdded(calls: seq<FirewallCall>, ip: string): nat {
    if |calls| == 0 then 0
    else (if calls[0] == AddDropRule(ip, true) then 1 else 0) + RulesAdded(calls[1..], ip)
  }

  /** Idempotent blocking: after a successful call a second call makes no firewall call, and
      two calls in a row add the drop rule at most once. */
  lemma BlockTwice(file: Option<string>, ip: string, ok1: bool, ok2: bool, ts1: Stamp, ts2: Stamp)
    requires Recordable(ip) && Complete(file)
    ensures var first := BlockIp(file, ip, ok1, ts1);
            var second := BlockIp(first.file, ip, ok2, ts2);
            && (first.ok ==> second.ok && second.calls == [])
            && RulesAdded(first.calls + second.calls, ip) <= 1
  {
    var first := BlockIp(file, ip, ok1, ts1);
    var second := BlockIp(first.file, ip, ok2, ts2);
    var calls := first.calls + second.calls;
    if first.ok {
      assert calls == first.calls;
    } else {
      assert calls == [AddDropRule(ip, false)] + second.calls;
      assert calls[1..] == second.calls;
      if second.calls != [] {
        assert second.calls[1..] == [];
      }
      assert RulesAdded(second.calls, ip) <= 1;
    }
  }

  /** `unblock_ip` as written: ask the firewall to delete the drop rule and report its
      outcome; the record file is left untouched. */
  function UnblockIp(file: Option<string>, ip: string, firewallOk: bool): (r: Outcome)
    ensures r.file == file
    ensures r.ok <==> firewallOk
    ensures r.calls == [DeleteDropRule(ip, firewallOk)]
  {
    Outcome(file, firewallOk, [DeleteDropRule(ip, firewallOk)])
  }

  /** Consequence of the untouched record: once an address has been unblocked, blocking it
      again reports success without adding a drop rule, so it stays unblocked. */
  lemma ReblockAfterUnblockSkipsFirewall(file: Option<string>, ip: string, firewallOk: bool, ts: Stamp)
    requires IsBlocked(file, ip)
    ensures var u := UnblockIp(file, ip, true);
            var b := BlockIp(u.file, ip, firewallOk, ts);
            u.ok && u.calls == [DeleteDropRule(ip, true)] && b.ok && b.calls == []
  {
  }

  /** A concrete instance: a record holding one blocked address. */
  lemma ReblockAfterUnblockExample(ts: Stamp)
    ensures var file := SaveToFile(NewBlocker(None, ts), "10.0.0.5", ts);
            var u := UnblockIp(file, "10.0.0.5", true);
            BlockIp(u.file, "10.0.0.5", true, ts).calls == []
  {
    var ip := "10.0.0.5";
    assert Recordable(ip);
    var file := SaveToFile(NewBlocker(None, ts), ip, ts);
    assert GetBlockedIps(file) == [ip];
  }

  /** The lines of `lines` whose entry is not `ip`. */
  function KeepOthers(lines: seq<string>, ip: string): (r: seq<string>)
    ensures forall l :: l in r ==> l in lines
  {
    if |lines| == 0 then []
    else
      var rest := KeepOthers(lines[1..], ip);
      if ParseEntry(lines[0]) == Some(ip) then rest else [lines[0]] + rest
  }

  /** The kept lines list every entry but `ip`'s, in order. */
  lemma {:induction false} KeepOthersEntries(lines: seq<string>, ip: string)
    ensures Entries(KeepOthers(lines, ip)) == RemoveAll(Entries(lines), ip)
  {
    if |lines| > 0 {
      var l := lines[0];
      var rest := KeepOthers(lines[1..], ip);
      KeepOthersEntries(lines[1..], ip);
      var head := Entries([l]);
      EntriesAppend([l], lines[1..]);
      assert [l] + lines[1..] == lines;
      assert [l][1..] == [];
      RemoveAllAppend(head, Entries(lines[1..]), ip);
      if ParseEntry(l) != Some(ip) {
        EntriesAppend([l], rest);
        if ParseEntry(l).Some? {
          assert head == [ParseEntry(l).value];
          assert head[1..] == [];
        }
      } else {
        assert head == [ip] && head[1..] == [];
      }
    }
  }

  lemma {:induction false} RemoveAllAppend(a: seq<string>, b: seq<string>, x: string)
    ensures RemoveAll(a + b, x) == RemoveAll(a, x) + RemoveAll(b, x)
  {
    if |a| == 0 {
      assert a + b == b;
    } else {
      var ab := a + b;
      assert ab[0] == a[0] && ab[1..] == a[1..] + b;
      var h := if a[0] == x then [] else [a[0]];
      assert RemoveAll(ab, x) == h + RemoveAll(a[1..] + b, x);
      assert RemoveAll(a, x) == h + RemoveAll(a[1..], x);
      RemoveAllAppend(a[1..], b, x);
    }
  }

  /** `s` without any occurrence of `x`. */
  function RemoveAll(s: seq<string>, x: string): (r: seq<string>)
    ensures x !in r
    ensures forall y :: y in r <==> y in s && y != x
  {
    if |s| == 0 then [] else (if s[0] == x then [] else [s[0]]) + RemoveAll(s[1..], x)
  }

  /** The record file without the lines of `ip`. */
  function RemoveRecord(file: Option<string>, ip: string): (r: Option<string>)
    ensures r.None? <==> file.None?
    ensures Complete(file) ==> Complete(r) && GetBlockedIps(r) == RemoveAll(GetBlockedIps(file), ip)
  {
    match file
    case None => None
    case Some(text) =>
      var kept := KeepOthers(SplitLines(text), ip);
      KeptLinesFacts(text, ip);
      Some(Join(kept))
  }

  lemma KeptLinesFacts(text: string, ip: string)
    ensures var kept := KeepOthers(SplitLines(text), ip);
            Complete(Some(text)) ==> && SplitLines(Join(kept)) == kept && Complete(Some(Join(kept)))
                                     && Entries(kept) == RemoveAll(Entries(SplitLines(text)), ip)
  {
    if Complete(Some(text)) {
      CompleteSplitsWhole(text);
      SplitJoin(KeepOthers(SplitLines(text), ip));
      KeepOthersEntries(SplitLines(text), ip);
    }
  }

  /** `unblock_ip` as evidently intended: on a successful firewall delete the address's record
      lines are removed as well. */
  function UnblockIpFixed(file: Option<string>, ip: string, firewallOk: bool): (r: Outcome)
    ensures r.ok <==> firewallOk
    ensures r.calls == [DeleteDropRule(ip, firewallOk)]
    ensures !firewallOk ==> r.file == file
    ensures firewallOk && Complete(file) ==> !IsBlocked(r.file, ip)
                                             && GetBlockedIps(r.file) == RemoveAll(GetBlockedIps(file), ip)
    ensures Complete(file) ==> Complete(r.file)
  {
    if firewallOk then Outcome(RemoveRecord(file, ip), true, [DeleteDropRule(ip, true)])
    else Outcome(file, false, [DeleteDropRule(ip, false)])
  }

  /** With the corrected unblock, blocking the address again does ask the firewall. */
  lemma ReblockAfterFixedUnblockCallsFirewall(file: Option<string>, ip: string, firewallOk: bool, ts: Stamp)
    requires Complete(file) && Recordable(ip)
    ensures var u := UnblockIpFixed(file, ip, true);
            var b := BlockIp(u.file, ip, firewallOk, ts);
            b.calls == [AddDropRule(ip, firewallOk)] && (b.ok ==> IsBlocked(b.file, ip))
  {
  }

  // ----- appending to a record whose last line has no line break -----

  /** A text without line breaks has one line as long as the text. */
  lemma {:induction false} NoBreakLength(x: string)
    requires '\n' !in x
    ensures FirstLineLength(x) == |x|
    decreases |x|
  {
    if |x| > 0 {
      assert forall k :: 0 <= k < |x[1..]| ==> x[1..][k] == x[k + 1];
      NoBreakLength(x[1..]);
    }
  }

  /** A non-empty text without line breaks is a single line. */
  lemma NoBreakSplit(x: string)
    requires |x| > 0 && '\n' !in x
    ensures SplitLines(x) == [x]
  {
    NoBreakLength(x);
    SplitStep(x);
    assert x[..|x|] == x && x[|x|..] == [];
  }

  /** `lstrip` leaves a text starting with non-whitespace alone. */
  lemma StripLeftSolid(x: string)
    requires x == [] || !IsSpace(x[0])
    ensures StripLeft(x) == x
  {
  }

  /** `rstrip` leaves a text ending in non-whitespace alone. */
  lemma StripRightSolid(x: string)
    requires x == [] || !IsSpace(x[|x| - 1])
    ensures StripRight(x) == x
  {
  }

  /** `split('|')[0]` of a bar-free text is the whole text. */
  lemma BeforeBarNoBar(x: string)
    requires '|' !in x
    ensures BeforeBar(x) == x
  {
    assert forall k :: 0 <= k < |x| ==> x[k] != '|';
  }

  /** A recordable address written alone, without a line break, is the record's one entry. */
  lemma SoleEntry(x: string)
    requires Recordable(x)
    ensures ParseEntry(x) == Some(x)
    ensures GetBlockedIps(Some(x)) == [x]
  {
    StripLeftSolid(x);
    StripRightSolid(x);
    assert Strip(x) == x;
    BeforeBarNoBar(x);
    NoBreakSplit(x);
    assert [x][1..] == [];
  }

  /** As written, `_save_to_file` appends after whatever the record ends with. When its last
      line lacks a line break, the new line is glued onto it: the old entry is gone and the
      new address is not listed. */
  lemma UnterminatedRecordMerges(x: string, ip: string, ts: Stamp)
    requires Recordable(x) && Recordable(ip) && x != ip
    ensures var o := BlockIp(Some(x), ip, true, ts);
            && IsBlocked(Some(x), x) && o.ok && o.calls == [AddDropRule(ip, true)]
            && GetBlockedIps(o.file) == [x + ip]
            && !IsBlocked(o.file, x) && !IsBlocked(o.file, ip)
  {
    SoleEntry(x);
    BlockAfterSole(x, ip, ts);
    MergedRecord(x, ip, ts);
    MergedHidesBoth(x, ip, ts);
  }

  /** Blocking a second address after a sole unterminated entry appends its record line. */
  lemma BlockAfterSole(x: string, ip: string, ts: Stamp)
    requires Recordable(x) && Recordable(ip) && x != ip
    ensures BlockIp(Some(x), ip, true, ts) == Outcome(Some(x + RecordLine(ip, ts)), true, [AddDropRule(ip, true)])
  {
    SoleEntry(x);
  }

  /** The merged entry is neither of the two addresses. */
  lemma MergedHidesBoth(x: string, ip: string, ts: Stamp)
    requires Recordable(x) && Recordable(ip)
    ensures !IsBlocked(Some(x + RecordLine(ip, ts)), x) && !IsBlocked(Some(x + RecordLine(ip, ts)), ip)
  {
    MergedRecord(x, ip, ts);
    assert |x + ip| > |x| && |x + ip| > |ip|;
  }

  /** ... and so blocking the same address again asks the firewall a second time. */
  lemma UnterminatedRecordReblocks(x: string, ip: string, ts: Stamp, ts2: Stamp)
    requires Recordable(x) && Recordable(ip) && x != ip
    ensures var o := BlockIp(Some(x), ip, true, ts);
            var again := BlockIp(o.file, ip, true, ts2);
            && again.calls == [AddDropRule(ip, true)]
            && RulesAdded(o.calls + again.calls, ip) == 2
  {
    UnterminatedRecordMerges(x, ip, ts);
    var o := BlockIp(Some(x), ip, true, ts);
    var again := BlockIp(o.file, ip, true, ts2);
    assert o.calls + again.calls == [AddDropRule(ip, true), AddDropRule(ip, true)];
    TwoRules(ip);
  }

  /** A record line appended to an unterminated entry reads back as one merged entry. */
  lemma MergedRecord(x: string, ip: string, ts: Stamp)
    requires Recordable(x) && Recordable(ip)
    ensures GetBlockedIps(Some(x + RecordLine(ip, ts))) == [x + ip]
  {
    var merged := x + ip;
    assert x + RecordLine(ip, ts) == RecordLine(merged, ts);
    assert Recordable(merged) by {
      assert merged[0] == x[0] && merged[|merged| - 1] == ip[|ip| - 1];
      assert forall k :: 0 <= k < |merged| ==> merged[k] == (if k < |x| then x[k] else ip[k - |x|]);
    }
    RecordLineRoundTrip(merged, ts);
    SplitWholeLine(RecordLine(merged, ts));
    assert [RecordLine(merged, ts)][1..] == [];
  }

  /** The same with two concrete addresses. */
  lemma UnterminatedRecordExample(ts: Stamp, ts2: Stamp)
    ensures var o := BlockIp(Some("10.0.0.1"), "10.0.0.2", true, ts);
            && IsBlocked(Some("10.0.0.1"), "10.0.0.1")
            && !IsBlocked(o.file, "10.0.0.1") && !IsBlocked(o.file, "10.0.0.2")
            && RulesAdded(o.calls + BlockIp(o.file, "10.0.0.2", true, ts2).calls, "10.0.0.2") == 2
  {
    assert Recordable("10.0.0.1") && Recordable("10.0.0.2");
    UnterminatedRecordMerges("10.0.0.1", "10.0.0.2", ts);
    UnterminatedRecordReblocks("10.0.0.1", "10.0.0.2", ts, ts2);
  }

  /** Two successful `add_drop_rule` calls for one address are two rules. */
  lemma TwoRules(ip: string)
    ensures RulesAdded([AddDropRule(ip, true), AddDropRule(ip, true)], ip) == 2
  {
    var one := [AddDropRule(ip, true)];
    assert one[1..] == [] && RulesAdded(one, ip) == 1;
    assert [AddDropRule(ip, true), AddDropRule(ip, true)][1..] == one;
  }

  /** `lstrip` of a text with a line break added: the break survives unless everything is
      whitespace. */
  lemma {:induction false} StripLeftNewline(s: string)
    ensures StripLeft(s + "\n") == if StripLeft(s) == "" then "" else StripLeft(s) + "\n"
    decreases |s|
  {
    if |s| == 0 {
      assert s + "\n" == "\n";
      StripLeftSpaceStep("\n");
      assert "\n"[1..] == "";
    } else if IsSpace(s[0]) {
      StripLeftSpaceStep(s);
      StripLeftSpaceStep(s + "\n");
      assert (s + "\n")[0] == s[0] && (s + "\n")[1..] == s[1..] + "\n";
      StripLeftNewline(s[1..]);
    } else {
      assert (s + "\n")[0] == s[0];
      StripLeftSolid(s);
      StripLeftSolid(s + "\n");
    }
  }

  /** `lstrip` drops a leading whitespace character. */
  lemma StripLeftSpaceStep(s: string)
    requires |s| > 0 && IsSpace(s[0])
    ensures StripLeft(s) == StripLeft(s[1..])
  {
  }

  /** A trailing line break does not change the stripped text. */
  lemma StripNewline(s: string)
    ensures Strip(s + "\n") == Strip(s)
  {
    StripLeftNewline(s);
    var l := StripLeft(s);
    if l != "" {
      var t := l + "\n";
      assert IsSpace(t[|t| - 1]) && t[..|t| - 1] == l;
      assert StripRight(t) == StripRight(l);
    }
  }

  /** Ending the last line with a line break keeps the record's entries. */
  lemma {:induction false} TerminateKeepsEntries(t: string)
    requires !Complete(Some(t))
    ensures Entries(SplitLines(t + "\n")) == Entries(SplitLines(t))
    decreases |t|
  {
    var n := FirstLineLength(t);
    FirstLineShape(t);
    if n < |t| {
      var a, rest := t[..n], t[n..];
      assert t == a + rest && a[|a| - 1] == '\n' && rest[|rest| - 1] == t[|t| - 1];
      TerminateKeepsEntries(rest);
      TerminateAfterLine(a, rest);
    } else {
      assert forall k :: 0 <= k < |t| ==> t[k] != '\n';
      TerminateLastLine(t);
    }
  }

  /** Adding the line break after a complete first line leaves that line's entries alone. */
  lemma TerminateAfterLine(a: string, rest: string)
    requires |a| > 0 && a[|a| - 1] == '\n'
    requires Entries(SplitLines(rest + "\n")) == Entries(SplitLines(rest))
    ensures Entries(SplitLines(a + rest + "\n")) == Entries(SplitLines(a + rest))
  {
    assert a + rest + "\n" == a + (rest + "\n");
    SplitAppend(a, rest);
    SplitAppend(a, rest + "\n");
    EntriesAppend(SplitLines(a), SplitLines(rest));
    EntriesAppend(SplitLines(a), SplitLines(rest + "\n"));
  }

  /** A last line without a line break has the same entry with one. */
  lemma TerminateLastLine(t: string)
    requires |t| > 0 && '\n' !in t
    ensures Entries(SplitLines(t + "\n")) == Entries(SplitLines(t))
  {
    NoBreakSplit(t);
    var l := t + "\n";
    assert forall k :: 0 <= k < |l| - 1 ==> l[k] == t[k];
    SplitWholeLine(l);
    StripNewline(t);
    assert ParseEntry(l) == ParseEntry(t);
    assert [l][1..] == [] && [t][1..] == [];
  }


  /** The record's text, ended with a line break when its last line lacks one. */
  function Terminate(text: string): (r: string)
    ensures Complete(Some(r))
    ensures Entries(SplitLines(r)) == Entries(SplitLines(text))
    ensures Complete(Some(text)) ==> r == text
  {
    if Complete(Some(text)) then text
    else
      TerminateKeepsEntries(text);
      text + "\n"
  }

  /** The corrected `_save_to_file`: start a new line before writing the record line. */
  function SaveToFileFixed(file: Option<string>, ip: string, ts: Stamp): (r: Option<string>)
    ensures r.Some? && Complete(r)
    ensures Recordable(ip) ==> GetBlockedIps(r) == GetBlockedIps(file) + [ip]
  {
    var text := match file case None => "" case Some(t) => t;
    var base := Terminate(text);
    SaveFacts(Some(base), ip, ts);
    assert SplitLines("") == [];
    Some(base + RecordLine(ip, ts))
  }

  /** `block_ip` with the corrected save. */
  function BlockIpFixed(file: Option<string>, ip: string, firewallOk: bool, ts: Stamp): (r: Outcome)
    ensures IsBlocked(file, ip) ==> r.ok && r.calls == [] && r.file == file
    ensures !IsBlocked(file, ip) ==> r.calls == [AddDropRule(ip, firewallOk)] && r.ok == firewallOk
    ensures !r.ok ==> r.file == file
    ensures r.ok && Recordable(ip) ==> IsBlocked(r.file, ip)
    ensures !IsBlocked(file, ip) && firewallOk && Recordable(ip) ==> GetBlockedIps(r.file) == GetBlockedIps(file) + [ip]
  {
    if IsBlocked(file, ip) then Outcome(file, true, [])
    else if firewallOk then Outcome(SaveToFileFixed(file, ip, ts), true, [AddDropRule(ip, true)])
    else Outcome(file, false, [AddDropRule(ip, false)])
  }

  /** With the corrected save, blocking is idempotent whatever the record ends with. */
  lemma BlockTwiceFixed(file: Option<string>, ip: string, ok1: bool, ok2: bool, ts1: Stamp, ts2: Stamp)
    requires Recordable(ip)
    ensures var first := BlockIpFixed(file, ip, ok1, ts1);
            var second := BlockIpFixed(first.file, ip, ok2, ts2);
            && (first.ok ==> second.ok && second.calls == [])
            && RulesAdded(first.calls + second.calls, ip) <= 1
  {
    var first := BlockIpFixed(file, ip, ok1, ts1);
    var second := BlockIpFixed(first.file, ip, ok2, ts2);
    var calls := first.calls + second.calls;
    if first.ok {
      assert calls == first.calls;
    } else {
      assert calls == [AddDropRule(ip, false)] + second.calls;
      assert calls[1..] == second.calls;
      if second.calls != [] {
        assert second.calls[1..] == [];
      }
      assert RulesAdded(second.calls, ip) <= 1;
    }
  }

  /** On a record ending in a line break the corrected `block_ip` is the one as written, so
      every claim made about the controller for such records holds of both. */
  lemma FixedAgreesOnComplete(file: Option<string>, ip: string, firewallOk: bool, ts: Stamp)
    requires Complete(file)
    ensures BlockIpFixed(file, ip, firewallOk, ts) == BlockIp(file, ip, firewallOk, ts)
  {
  }
}

=== FILE: chains.dfy ===
/** Singly linked node chains, the storage shared by the custom linked list and the
    custom queue. A chain is immutable here: relinking a `next` field in the source yields a
    new chain value. */
module Chains {

  /** `Node(data, next)` is one node of the source's `Node`/`QueueNode`; `Nil` is `None`. */
  datatype Chain<T> = Nil | Node(data: T, next: Chain<T>)

  /** The values met when walking the chain from its first node to its last. */
  function Elements<T>(c: Chain<T>): seq<T> {
    match c
    case Nil => []
    case Node(d, n) => [d] + Elements(n)
  }

  /** Number of nodes in the chain. */
  function Length<T>(c: Chain<T>): nat {
    match c
    case Nil => 0
    case Node(_, n) => 1 + Length(n)
  }

  /** The last node of a chain (`Nil` for the empty chain): the node a `rear` reference designates. */
  function LastNode<T>(c: Chain<T>): Chain<T> {
    match c
    case Nil => Nil
    case Node(d, Nil) => Node(d, Nil)
    case Node(_, n) => LastNode(n)
  }

  /** Walk to the last node and link a new node holding `d` after it. */
  function Snoc<T>(c: Chain<T>, d: T): (r: Chain<T>)
    ensures Elements(r) == Elements(c) + [d]
    ensures Length(r) == Length(c) + 1
    ensures LastNode(r) == Node(d, Nil)
  {
    match c
    case Nil => Node(d, Nil)
    case Node(x, n) => Node(x, Snoc(n, d))
  }

  /** The node count is the length of the walked sequence. */
  lemma {:induction false} LengthIsElementCount<T>(c: Chain<T>)
    ensures Length(c) == |Elements(c)|
  {
    match c
    case Nil =>
    case Node(_, n) => LengthIsElementCount(n);
  }

  /** The last node holds the last element, and it is `Nil` exactly for the empty chain. */
  lemma {:induction false} LastNodeHoldsLastElement<T>(c: Chain<T>)
    ensures LastNode(c).Nil? <==> c.Nil?
    ensures c.Node? ==> LastNode(c) == Node(Elements(c)[|Elements(c)| - 1], Nil)
  {
    match c
    case Nil =>
    case Node(_, n) =>
      if n.Node? {
        LastNodeHoldsLastElement(n);
      }
  }
}

=== FILE: detector.dfy ===
/** The failed-login detector: a static threshold decides which addresses are threats and
    fixed breakpoints map an attempt count to a severity tier. Every reported threat is
    also kept in a history from which a per-tier summary is computed. */
module Detectors {
  import opened Levels

  /** One reported threat. The source also stamps it with the wall-clock time, which is not
      modelled. */
  datatype Threat = Threat(ip: string, attempts: int, level: Level)

  /** The detector's state: its threshold and every threat it has reported so far. */
  datatype Detector = Detector(threshold: int, history: seq<Threat>)

  /** A per-tier breakdown of the history. */
  datatype ThreatSummary = ThreatSummary(total: nat, byLevel: map<Level, nat>)

  /** A new detector (the source's default threshold is 5). */
  function NewDetector(threshold: int): (d: Detector)
    ensures d.threshold == threshold && d.history == []
    ensures GetThreatSummary(d) == ThreatSummary(0, map[])
  {
    Detector(threshold, [])
  }

  /** `_calculate_threat_level`: the tier of an attempt count. */
  function ThreatLevel(attempts: int): (l: Level)
    ensures l == CRITICAL <==> 20 <= attempts
    ensures l == HIGH <==> 10 <= attempts < 20
    ensures l == MEDIUM <==> 7 <= attempts < 10
    ensures l == LOW <==> attempts < 7
    ensures Rank(l) == (if attempts >= 7 then 1 else 0) + (if attempts >= 10 then 1 else 0)
                       + (if attempts >= 20 then 1 else 0)
  {
    if attempts >= 20 then CRITICAL
    else if attempts >= 10 then HIGH
    else if attempts >= 7 then MEDIUM
    else LOW
  }

  /** A larger attempt count never yields a lower tier. */
  lemma LevelMonotone(a: int, b: int)
    requires a <= b
    ensures Rank(ThreatLevel(a)) <= Rank(ThreatLevel(b))
  {
  }

  /** The threat reported for one `(ip, count)` entry. */
  function ThreatOf(entry: (string, int)): Threat {
    Threat(entry.0, entry.1, ThreatLevel(entry.1))
  }

  /** The loop of `detect_threats`: one threat per entry whose count reaches the threshold,
      in the order of the entries (a dictionary's items, in insertion order). */
  function Surface(threshold: int, entries: seq<(string, int)>): (r: seq<Threat>)
    ensures |r| <= |entries|
    ensures forall t :: t in r ==>
              t.attempts >= threshold && t.level == ThreatLevel(t.attempts) && (t.ip, t.attempts) in entries
    ensures forall e :: e in entries && e.1 >= threshold ==> ThreatOf(e) in r
  {
    if |entries| == 0 then []
    else
      var rest := Surface(threshold, entries[1..]);
      assert forall e :: e in entries[1..] ==> e in entries;
      assert forall e :: e in entries ==> e == entries[0] || e in entries[1..];
      (if entries[0].1 >= threshold then [ThreatOf(entries[0])] else []) + rest
  }

  /** The filter works entry by entry: the threats of a concatenation are the threats of the
      first part followed by those of the second, so input order is kept. */
  lemma {:induction false} SurfaceAppend(threshold: int, a: seq<(string, int)>, b: seq<(string, int)>)
    ensures Surface(threshold, a + b) == Surface(threshold, a) + Surface(threshold, b)
  {
    if |a| > 0 {
      assert (a + b)[1..] == a[1..] + b;
      SurfaceAppend(threshold, a[1..], b);
    } else {
      assert a + b == b;
    }
  }

  /** For a single entry: a threat carrying the entry unchanged exactly when the count reaches
      the threshold (the threshold itself included). */
  lemma SurfaceOne(threshold: int, ip: string, count: int)
    ensures Surface(threshold, [(ip, count)])
            == if count >= threshold then [Threat(ip, count, ThreatLevel(count))] else []
  {
    assert [(ip, count)][1..] == [];
  }

  /** No address appears twice among the attempt counts (as when they come from a map). */
  predicate DistinctAddresses(entries: seq<(string, int)>) {
    forall i, j :: 0 <= i < j < |entries| ==> entries[i].0 != entries[j].0
  }

  /** No address is reported twice. */
  predicate DistinctIps(threats: seq<Threat>) {
    forall i, j :: 0 <= i < j < |threats| ==> threats[i].ip != threats[j].ip
  }

  /** Counts with distinct addresses yield threats with distinct addresses. */
  lemma {:induction false} SurfaceDistinct(threshold: int, entries: seq<(string, int)>)
    requires DistinctAddresses(entries)
    ensures DistinctIps(Surface(threshold, entries))
    decreases |entries|
  {
    if |entries| > 0 {
      var tail := entries[1..];
      assert forall k :: 0 <= k < |tail| ==> tail[k] == entries[k + 1];
      SurfaceDistinct(threshold, tail);
      SurfaceAvoidsFirst(threshold, entries);
      var head := if entries[0].1 >= threshold then [ThreatOf(entries[0])] else [];
      assert Surface(threshold, entries) == head + Surface(threshold, tail);
      DistinctCons(head, Surface(threshold, tail));
    }
  }

  /** Later counts' threats do not carry the first count's address. */
  lemma SurfaceAvoidsFirst(threshold: int, entries: seq<(string, int)>)
    requires |entries| > 0 && DistinctAddresses(entries)
    ensures forall t :: t in Surface(threshold, entries[1..]) ==> t.ip != entries[0].0
  {
    var tail := entries[1..];
    forall t | t in Surface(threshold, tail)
      ensures t.ip != entries[0].0
    {
      var k :| 0 <= k < |tail| && tail[k] == (t.ip, t.attempts);
      assert entries[k + 1].0 == t.ip;
    }
  }

  /** Prefixing at most one threat whose address is new keeps addresses distinct. */
  lemma DistinctCons(head: seq<Threat>, rest: seq<Threat>)
    requires |head| <= 1 && DistinctIps(rest)
    requires forall t :: t in rest ==> forall h :: h in head ==> t.ip != h.ip
    ensures DistinctIps(head + rest)
  {
    var r := head + rest;
    forall i, j | 0 <= i < j < |r|
      ensures r[i].ip != r[j].ip
    {
      assert r[j] == rest[j - |head|] && r[j] in rest;
      if i >= |head| {
        assert r[i] == rest[i - |head|];
      } else {
        assert r[i] in head;
      }
    }
  }


  /** `detect_threats`: report the threats of `entries` and append them to the history. */
  function DetectThreats(d: Detector, entries: seq<(string, int)>): (r: (Detector, seq<Threat>))
    ensures r.1 == Surface(d.threshold, entries)
    ensures r.0.threshold == d.threshold
    ensures r.0.history == d.history + r.1
  {
    var threats := Surface(d.threshold, entries);
    (Detector(d.threshold, d.history + threats), threats)
  }

  /** `is_malicious`: the single-entry form of the filter `detect_threats` applies. */
  function IsMalicious(d: Detector, ip: string, attemptCount: int): (r: bool)
    ensures r <==> Surface(d.threshold, [(ip, attemptCount)]) != []
    ensures r <==> ThreatOf((ip, attemptCount)) in DetectThreats(d, [(ip, attemptCount)]).1
  {
    SurfaceOne(d.threshold, ip, attemptCount);
    attemptCount >= d.threshold
  }

  /** How many threats of `history` have tier `l`. */
  function CountLevel(history: seq<Threat>, l: Level): nat {
    if |history| == 0 then 0
    else CountLevel(history[..|history| - 1], l) + (if history[|history| - 1].level == l then 1 else 0)
  }

  /** The four per-tier counts add up to the length of the history. */
  lemma {:induction false} CountLevelsSum(history: seq<Threat>)
    ensures CountLevel(history, LOW) + CountLevel(history, MEDIUM) + CountLevel(history, HIGH)
            + CountLevel(history, CRITICAL) == |history|
  {
    if |history| > 0 {
      CountLevelsSum(history[..|history| - 1]);
    }
  }

  /** The `by_level[level] += 1` loop over the history: a tier is present exactly when some
      threat has it, and then maps to its count. */
  function Tally(history: seq<Threat>): (r: map<Level, nat>)
    ensures forall l :: l in r <==> CountLevel(history, l) > 0
    ensures forall l :: l in r ==> r[l] == CountLevel(history, l)
  {
    if |history| == 0 then map[]
    else
      var m := Tally(history[..|history| - 1]);
      var l := history[|history| - 1].level;
      m[l := (if l in m then m[l] else 0) + 1]
  }

  /** The count recorded for `l`, zero when absent (a `defaultdict(int)` lookup). */
  function CountOr0(m: map<Level, nat>, l: Level): nat {
    if l in m then m[l] else 0
  }

  /** `get_threat_summary`. */
  function GetThreatSummary(d: Detector): (s: ThreatSummary)
    ensures s.total == |d.history|
    ensures forall l :: CountOr0(s.byLevel, l) == CountLevel(d.history, l)
    ensures forall l :: l in s.byLevel ==> s.byLevel[l] > 0
    ensures CountOr0(s.byLevel, LOW) + CountOr0(s.byLevel, MEDIUM) + CountOr0(s.byLevel, HIGH)
            + CountOr0(s.byLevel, CRITICAL) == s.total
    ensures d.history == [] ==> s == ThreatSummary(0, map[])
  {
    CountLevelsSum(d.history);
    if |d.history| == 0 then ThreatSummary(0, map[])
    else ThreatSummary(|d.history|, Tally(d.history))
  }
}

=== FILE: hash_table.dfy ===
/** The custom separate-chaining hash table: a fixed number of buckets, each a list of
    key/value pairs; a key lives in the bucket its hash selects. Python's built-in `hash` is
    not modelled: every operation takes it as the parameter `h`. */
module HashTables {
  import opened Wrappers

  type Bucket<K, V> = seq<(K, V)>

  /** `size` is the bucket count, `table` the buckets, `count` the hand-maintained pair count. */
  datatype HashTable<K, V> = HashTable(size: int, table: seq<Bucket<K, V>>, count: int)

  /** `_hash_function`: `hash(key) % size`. Python's `%` rounds toward minus infinity, so for a
      positive bucket count it agrees with Dafny's `%` and lands in `[0, size)`. */
  function BucketIndex<K(==,!new)>(h: K -> int, size: int, key: K): (i: int)
    requires size > 0
    ensures 0 <= i < size
  {
    h(key) % size
  }

  /** The bucket array has the advertised number of buckets. */
  predicate Shaped<K(==,!new), V>(t: HashTable<K, V>) {
    t.size > 0 && |t.table| == t.size
  }

  /** No key occurs twice in `s`. */
  predicate DistinctKeys<K(==,!new), V>(s: seq<(K, V)>) {
    forall i, j :: 0 <= i < j < |s| ==> s[i].0 != s[j].0
  }

  /** All pairs, bucket after bucket: what `items()` returns. */
  function Flatten<K(==,!new), V>(buckets: seq<Bucket<K, V>>): seq<(K, V)> {
    if |buckets| == 0 then [] else Flatten(buckets[..|buckets| - 1]) + buckets[|buckets| - 1]
  }

  /** The keys of a sequence of pairs, in order. */
  function Firsts<K(==,!new), V>(s: seq<(K, V)>): (r: seq<K>)
    ensures |r| == |s|
    ensures forall i :: 0 <= i < |s| ==> r[i] == s[i].0
  {
    if |s| == 0 then [] else Firsts(s[..|s| - 1]) + [s[|s| - 1].0]
  }

  /** The representation invariant: every pair sits in the bucket its key hashes to, no
      bucket repeats a key, and `count` is the number of stored pairs. */
  predicate Valid<K(==,!new), V>(t: HashTable<K, V>, h: K -> int) {
    && Shaped(t)
    && (forall i, j :: 0 <= i < |t.table| && 0 <= j < |t.table[i]| ==>
          BucketIndex(h, t.size, t.table[i][j].0) == i)
    && (forall i :: 0 <= i < |t.table| ==> DistinctKeys(t.table[i]))
    && t.count == |Flatten(t.table)|
  }

  // ----- one bucket -----

  /** The value paired with `key` by the first pair holding it. */
  function Find<K(==,!new), V>(b: Bucket<K, V>, key: K): (r: Option<V>)
    ensures r.Some? ==> (key, r.value) in b
    ensures r.None? <==> forall j :: 0 <= j < |b| ==> b[j].0 != key
  {
    if |b| == 0 then None
    else if b[0].0 == key then Some(b[0].1)
    else
      var r := Find(b[1..], key);
      assert forall j :: 1 <= j < |b| ==> b[j] == b[1..][j - 1];
      r
  }

  /** In a bucket without repeated keys, `key` finds exactly the value it is paired with. */
  lemma FindExact<K(!new), V>(b: Bucket<K, V>, key: K, v: V)
    requires DistinctKeys(b)
    ensures Find(b, key) == Some(v) <==> (key, v) in b
  {
    if (key, v) in b {
      var j :| 0 <= j < |b| && b[j] == (key, v);
      var u := Find(b, key).value;
      var i :| 0 <= i < |b| && b[i] == (key, u);
      assert i == j;
    }
  }

  /** Overwrite the value of the first pair holding `key` (the `bucket[i] = (key, value)` step). */
  function Replace<K(==,!new), V>(b: Bucket<K, V>, key: K, v: V): (r: Bucket<K, V>)
    requires Find(b, key).Some?
    ensures |r| == |b|
    ensures forall j :: 0 <= j < |b| ==> r[j].0 == b[j].0
    ensures forall j :: 0 <= j < |b| ==> r[j] == b[j] || r[j] == (key, v)
    ensures Find(r, key) == Some(v)
  {
    if b[0].0 == key then [(key, v)] + b[1..]
    else
      var r := [b[0]] + Replace(b[1..], key, v);
      assert forall j :: 1 <= j < |b| ==> b[j] == b[1..][j - 1] && r[j] == r[1..][j - 1];
      r
  }

  /** Drop the first pair holding `key` (the `del bucket[i]` step). */
  function Drop<K(==,!new), V>(b: Bucket<K, V>, key: K): (r: Bucket<K, V>)
    requires Find(b, key).Some?
    ensures |r| + 1 == |b|
    ensures forall p :: p in r ==> p in b
    ensures DistinctKeys(b) ==> DistinctKeys(r) && Find(r, key).None?
    ensures forall k :: k != key ==> Find(r, k) == Find(b, k)
  {
    if b[0].0 == key then
      assert forall j :: 0 <= j < |b[1..]| ==> b[1..][j] == b[j + 1];
      b[1..]
    else
      var r := [b[0]] + Drop(b[1..], key);
      assert forall j :: 1 <= j < |b| ==> b[j] == b[1..][j - 1];
      assert forall j :: 1 <= j < |r| ==> r[j] == r[1..][j - 1] && r[j] in b[1..];
      assert DistinctKeys(b) ==> DistinctKeys(b[1..]) && forall p :: p in b[1..] ==> p.0 != b[0].0;
      assert forall k :: k != key ==> Find(r, k) == Find(b, k) by {
        forall k | k != key
          ensures Find(r, k) == Find(b, k)
        {
          if b[0].0 != k {
            assert r[1..] == Drop(b[1..], key);
          }
        }
      }
      r
  }

  /** Changing one pair's value leaves every other key's lookup alone. */
  lemma ReplaceKeepsOthers<K(!new), V>(b: Bucket<K, V>, key: K, v: V, k: K)
    requires Find(b, key).Some? && k != key
    ensures Find(Replace(b, key, v), k) == Find(b, k)
  {
    if b[0].0 != key {
      var r := Replace(b, key, v);
      assert r[1..] == Replace(b[1..], key, v);
      if b[0].0 != k {
        ReplaceKeepsOthers(b[1..], key, v, k);
      }
    }
  }

  /** Appending a pair for a fresh key leaves every other key's lookup alone. */
  lemma AppendKeepsOthers<K(!new), V>(b: Bucket<K, V>, key: K, v: V, k: K)
    requires k != key
    ensures Find(b + [(key, v)], k) == Find(b, k)
  {
    if |b| > 0 && b[0].0 != k {
      assert (b + [(key, v)])[1..] == b[1..] + [(key, v)];
      AppendKeepsOthers(b[1..], key, v, k);
    }
  }

  // ----- flattening -----

  /** A pair is stored iff some bucket holds it. */
  lemma {:induction false} InFlatten<K(!new), V>(buckets: seq<Bucket<K, V>>, p: (K, V))
    ensures p in Flatten(buckets) <==> exists i :: 0 <= i < |buckets| && p in buckets[i]
  {
    if |buckets| > 0 {
      var n := |buckets| - 1;
      var pre := buckets[..n];
      InFlatten(pre, p);
      assert Flatten(buckets) == Flatten(pre) + buckets[n];
      assert forall i :: 0 <= i < n ==> pre[i] == buckets[i];
      if p in Flatten(buckets) {
        if p !in buckets[n] {
          var i :| 0 <= i < n && p in pre[i];
          assert p in buckets[i];
        }
      } else {
        forall i | 0 <= i < |buckets|
          ensures p !in buckets[i]
        {
          if i < n {
            assert buckets[i] == pre[i];
          }
        }
      }
    }
  }

  /** Replacing one bucket changes the pair count by the change of that bucket's length. */
  lemma FlattenUpdateLength<K(!new), V>(buckets: seq<Bucket<K, V>>, i: int, b: Bucket<K, V>)
    requires 0 <= i < |buckets|
    ensures |Flatten(buckets[i := b])| + |buckets[i]| == |Flatten(buckets)| + |b|
  {
    var n := |buckets| - 1;
    var u := buckets[i := b];
    assert u[..n] == if i < n then buckets[..n][i := b] else buckets[..n];
    if i < n {
      FlattenUpdateLength(buckets[..n], i, b);
    }
  }

  /** Buckets holding pairwise different keys flatten to a key-distinct sequence. */
  lemma FlattenDistinct<K(!new), V>(t: HashTable<K, V>, h: K -> int, m: nat)
    requires Valid(t, h) && m <= |t.table|
    ensures DistinctKeys(Flatten(t.table[..m]))
    ensures forall p :: p in Flatten(t.table[..m]) ==> BucketIndex(h, t.size, p.0) < m
  {
    if m > 0 {
      var pre := t.table[..m - 1];
      assert t.table[..m][..m - 1] == pre;
      FlattenDistinct(t, h, m - 1);
      var a := Flatten(pre);
      var b := t.table[m - 1];
      assert Flatten(t.table[..m]) == a + b;
      assert forall q :: q in b ==> BucketIndex(h, t.size, q.0) == m - 1;
      assert DistinctKeys(b);
      assert DistinctKeys(a + b) by {
        forall i, j | 0 <= i < j < |a + b|
          ensures (a + b)[i].0 != (a + b)[j].0
        {
          if j < |a| {
          } else if i >= |a| {
            assert (a + b)[i] == b[i - |a|] && (a + b)[j] == b[j - |a|];
          } else {
            assert (a + b)[i] in a && (a + b)[j] in b;
          }
        }
      }
    }
  }

  // ----- table operations -----

  /** A fresh table of `size` empty buckets (the constructor). Python fails on the first
      operation when `size` is not positive, so only positive sizes are modelled. */
  function Empty<K(==,!new), V>(size: int, h: K -> int): (t: HashTable<K, V>)
    requires size > 0
    ensures Valid(t, h)
    ensures t.count == 0
    ensures forall k :: Get(t, h, k).None?
  {
    var t := HashTable(size, seq(size, _ => []), 0);
    assert forall n :: 0 <= n <= size ==> Flatten(t.table[..n]) == [] by {
      forall n | 0 <= n <= size
        ensures Flatten(t.table[..n]) == []
      {
        EmptyBucketsFlatten(t.table[..n]);
      }
    }
    assert t.table[..size] == t.table;
    t
  }

  lemma EmptyBucketsFlatten<K(!new), V>(buckets: seq<Bucket<K, V>>)
    requires forall i :: 0 <= i < |buckets| ==> buckets[i] == []
    ensures Flatten(buckets) == []
  {
    if |buckets| > 0 {
      EmptyBucketsFlatten(buckets[..|buckets| - 1]);
    }
  }

  /** `get`: the value stored under `key`, or `None`. */
  function Get<K(==,!new), V>(t: HashTable<K, V>, h: K -> int, key: K): (r: Option<V>)
    requires Shaped(t)
    ensures r.Some? ==> (key, r.value) in t.table[BucketIndex(h, t.size, key)]
    ensures r.None? <==> forall p :: p in t.table[BucketIndex(h, t.size, key)] ==> p.0 != key
  {
    Find(t.table[BucketIndex(h, t.size, key)], key)
  }

  /** `insert`: overwrite the pair of an existing key, otherwise append a new pair and bump
      `count`. */
  function Insert<K(==,!new), V>(t: HashTable<K, V>, h: K -> int, key: K, v: V): (r: HashTable<K, V>)
    requires Shaped(t)
    ensures Shaped(r) && r.size == t.size
    ensures Get(r, h, key) == Some(v)
    ensures forall k :: k != key ==> Get(r, h, k) == Get(t, h, k)
    ensures r.count == if Get(t, h, key).Some? then t.count else t.count + 1
    ensures Valid(t, h) ==> Valid(r, h)
  {
    var i := BucketIndex(h, t.size, key);
    var b := t.table[i];
    if Find(b, key).Some? then
      var b' := Replace(b, key, v);
      var r := HashTable(t.size, t.table[i := b'], t.count);
      InsertFacts(t, h, key, v, b');
      r
    else
      var b' := b + [(key, v)];
      var r := HashTable(t.size, t.table[i := b'], t.count + 1);
      InsertFacts(t, h, key, v, b');
      r
  }

  /** What both branches of `Insert` need: the new bucket for `key`'s index. */
  lemma InsertFacts<K(!new), V>(t: HashTable<K, V>, h: K -> int, key: K, v: V, b': Bucket<K, V>)
    requires Shaped(t)
    requires var b := t.table[BucketIndex(h, t.size, key)];
             if Find(b, key).Some? then b' == Replace(b, key, v) else b' == b + [(key, v)]
    ensures var i := BucketIndex(h, t.size, key);
            var r := HashTable(t.size, t.table[i := b'],
                               if Find(t.table[i], key).Some? then t.count else t.count + 1);
            && Get(r, h, key) == Some(v)
            && (forall k :: k != key ==> Get(r, h, k) == Get(t, h, k))
            && (Valid(t, h) ==> Valid(r, h))
  {
    var i := BucketIndex(h, t.size, key);
    var b := t.table[i];
    var added := Find(b, key).None?;
    var r := HashTable(t.size, t.table[i := b'], if added then t.count + 1 else t.count);
    if added {
      assert Find(b', key) == Some(v) by {
        AppendKeepsOthersFind(b, key, v);
      }
    }
    forall k | k != key
      ensures Get(r, h, k) == Get(t, h, k)
    {
      if BucketIndex(h, t.size, k) == i {
        if added { AppendKeepsOthers(b, key, v, k); } else { ReplaceKeepsOthers(b, key, v, k); }
      }
    }
    if Valid(t, h) {
      FlattenUpdateLength(t.table, i, b');
      assert DistinctKeys(b') by {
        if added {
          forall x, y | 0 <= x < y < |b'|
            ensures b'[x].0 != b'[y].0
          {
            if y == |b| { assert b[x].0 != key; }
          }
        }
      }
      assert forall j :: 0 <= j < |b'| ==> BucketIndex(h, t.size, b'[j].0) == i by {
        forall j | 0 <= j < |b'|
          ensures BucketIndex(h, t.size, b'[j].0) == i
        {
          if !added || j < |b| { assert b'[j].0 == b[j].0; }
        }
      }
    }
  }

  /** A pair appended for a key the bucket lacks is what that key then finds. */
  lemma AppendKeepsOthersFind<K(!new), V>(b: Bucket<K, V>, key: K, v: V)
    requires Find(b, key).None?
    ensures Find(b + [(key, v)], key) == Some(v)
  {
    if |b| > 0 {
      assert (b + [(key, v)])[1..] == b[1..] + [(key, v)];
      AppendKeepsOthersFind(b[1..], key, v);
    }
  }

  /** `delete`: remove the pair of `key`; the flag tells whether there was one. */
  function Delete<K(==,!new), V>(t: HashTable<K, V>, h: K -> int, key: K): (r: (HashTable<K, V>, bool))
    requires Shaped(t)
    ensures Shaped(r.0) && r.0.size == t.size
    ensures r.1 <==> Get(t, h, key).Some?
    ensures !r.1 ==> r.0 == t
    ensures r.0.count == if r.1 then t.count - 1 else t.count
    ensures forall k :: k != key ==> Get(r.0, h, k) == Get(t, h, k)
    ensures Valid(t, h) ==> Valid(r.0, h) && Get(r.0, h, key).None?
  {
    var i := BucketIndex(h, t.size, key);
    var b := t.table[i];
    if Find(b, key).Some? then
      var b' := Drop(b, key);
      var r := HashTable(t.size, t.table[i := b'], t.count - 1);
      DeleteKeepsValid(t, h, key);
      (r, true)
    else
      (t, false)
  }

  /** `contains`: whether `get` finds a value; on a valid table, whether `key` is among the keys. */
  function Contains<K(==,!new), V>(t: HashTable<K, V>, h: K -> int, key: K): (r: bool)
    requires Shaped(t)
    ensures Valid(t, h) ==> (r <==> key in Firsts(Flatten(t.table)))
  {
    ContainsFacts(t, h, key);
    Get(t, h, key).Some?
  }

  lemma ContainsFacts<K(!new), V>(t: HashTable<K, V>, h: K -> int, key: K)
    requires Shaped(t)
    ensures Valid(t, h) ==> (Get(t, h, key).Some? <==> key in Firsts(Flatten(t.table)))
  {
    if Valid(t, h) {
      KeysAreStoredKeys(t, h, key);
    }
  }

  /** Dropping `key`'s pair from its bucket keeps the invariant, with `count` one less. */
  lemma DeleteKeepsValid<K(!new), V>(t: HashTable<K, V>, h: K -> int, key: K)
    requires Shaped(t) && Get(t, h, key).Some?
    ensures var i := BucketIndex(h, t.size, key);
            Valid(t, h) ==> Valid(HashTable(t.size, t.table[i := Drop(t.table[i], key)], t.count - 1), h)
  {
    var i := BucketIndex(h, t.size, key);
    var b' := Drop(t.table[i], key);
    if Valid(t, h) {
      FlattenUpdateLength(t.table, i, b');
      assert forall j :: 0 <= j < |b'| ==> b'[j] in t.table[i];
    }
  }

  /** On a valid table, a key is among the stored pairs iff `get` finds it, and a pair is
      stored iff `get` returns its value. */
  lemma KeysAreStoredKeys<K(!new), V>(t: HashTable<K, V>, h: K -> int, key: K)
    requires Valid(t, h)
    ensures key in Firsts(Flatten(t.table)) <==> Get(t, h, key).Some?
    ensures forall v :: (key, v) in Flatten(t.table) <==> Get(t, h, key) == Some(v)
  {
    var i := BucketIndex(h, t.size, key);
    var items := Flatten(t.table);
    forall v
      ensures (key, v) in items <==> Get(t, h, key) == Some(v)
    {
      InFlatten(t.table, (key, v));
      FindExact(t.table[i], key, v);
    }
    if key in Firsts(items) {
      var j :| 0 <= j < |items| && Firsts(items)[j] == key;
      assert (key, items[j].1) in items;
    }
    if Get(t, h, key).Some? {
      var v := Get(t, h, key).value;
      assert (key, v) in items;
      var j :| 0 <= j < |items| && items[j] == (key, v);
      assert Firsts(items)[j] == key;
    }
  }

  /** On a valid table `count` is the number of stored pairs and no key is stored twice. */
  lemma CountIsPairCount<K(!new), V>(t: HashTable<K, V>, h: K -> int)
    requires Valid(t, h)
    ensures Len(t) == |Flatten(t.table)|
    ensures DistinctKeys(Flatten(t.table))
  {
    FlattenDistinct(t, h, |t.table|);
    assert t.table[..|t.table|] == t.table;
  }

  /** On a valid table `count` is the number of distinct stored keys. */
  lemma CountIsKeyCount<K(!new), V>(t: HashTable<K, V>, h: K -> int)
    requires Valid(t, h)
    ensures |set k | k in Firsts(Flatten(t.table))| == Len(t)
  {
    CountIsPairCount(t, h);
    DistinctCard(Firsts(Flatten(t.table)));
  }

  /** A sequence without repetitions has as many distinct elements as positions. */
  lemma {:induction false} DistinctCard<T>(s: seq<T>)
    requires forall i, j :: 0 <= i < j < |s| ==> s[i] != s[j]
    ensures |set x | x in s| == |s|
  {
    if |s| > 0 {
      var init := s[..|s| - 1];
      DistinctCard(init);
      assert (set x | x in s) == (set x | x in init) + {s[|s| - 1]};
      assert s[|s| - 1] !in (set x | x in init);
    }
  }

  /** `__len__`. */
  function Len<K(==,!new), V>(t: HashTable<K, V>): int {
    t.count
  }

  /** `items`: every stored pair, bucket after bucket. */
  method Items<K(==,!new), V>(t: HashTable<K, V>) returns (all: seq<(K, V)>)
    ensures all == Flatten(t.table)
  {
    all := [];
    var i := 0;
    while i < |t.table|
      invariant 0 <= i <= |t.table|
      invariant all == Flatten(t.table[..i])
    {
      assert t.table[..i + 1][..i] == t.table[..i];
      all := all + t.table[i];
      i := i + 1;
    }
    assert t.table[..i] == t.table;
  }

  /** `keys`: every stored key, bucket after bucket. */
  method Keys<K(==,!new), V>(t: HashTable<K, V>) returns (all: seq<K>)
    ensures all == Firsts(Flatten(t.table))
  {
    all := [];
    var i := 0;
    while i < |t.table|
      invariant 0 <= i <= |t.table|
      invariant all == Firsts(Flatten(t.table[..i]))
    {
      var bucket := t.table[i];
      var j := 0;
      while j < |bucket|
        invariant 0 <= j <= |bucket|
        invariant all == Firsts(Flatten(t.table[..i]) + bucket[..j])
      {
        assert (Flatten(t.table[..i]) + bucket[..j + 1])[..|Flatten(t.table[..i])| + j]
               == Flatten(t.table[..i]) + bucket[..j];
        all := all + [bucket[j].0];
        j := j + 1;
      }
      assert t.table[..i + 1][..i] == t.table[..i];
      assert bucket[..j] == bucket;
      i := i + 1;
    }
    assert t.table[..i] == t.table;
  }
}

=== FILE: http_detector.dfy ===
/** The HTTP request detector: four independent attack categories, each matched when any of
    its patterns matches; the matched categories, listed in a fixed order, decide the
    severity; every detection is counted per address in a custom hash table and kept in a
    list from which a summary is computed. The regular-expression engine is not modelled:
    `re.search` is the parameter `search`. Python's `hash` is the parameter `h`. */
module HttpDetectors {
  import opened Wrappers
  import opened Levels
  import HashTables

  datatype Category = SQL_INJECTION | XSS | PATH_TRAVERSAL | COMMAND_INJECTION

  /** A pattern as the source writes it, and whether it is searched ignoring case. */
  datatype Regex = Regex(source: string, ignoreCase: bool)

  /** `re.search(pattern, text)` found a match. */
  type Search = (Regex, string) -> bool

  /** One detection. The source also records the wall-clock time, which is not modelled. */
  datatype Attack = Attack(ip: string, attackTypes: seq<Category>, request: string, threatLevel: Level)

  /** `attack_tracker` maps an address to its number of detections. */
  datatype HttpDetector = HttpDetector(tracker: HashTables.HashTable<string, int>, detectedAttacks: seq<Attack>)

  datatype AttackSummary = AttackSummary(totalAttacks: nat, uniqueIps: int, byType: map<Category, nat>)

  const SQL_INJECTION_PATTERNS: seq<Regex> := [
    Regex(@"(?i)(union\s+select|select\s+.*\s+from|insert\s+into|delete\s+from)", true),
    Regex(@"(?i)(drop\s+table|update\s+.*\s+set|--|\#|\/\*)", true),
    Regex(@"(?i)(or\s+1\s*=\s*1|or\s+'1'\s*=\s*'1'|'.*or.*')", true)
  ]

  const XSS_PATTERNS: seq<Regex> := [
    Regex(@"<script[^>]*>.*</script>", true),
    Regex(@"javascript:", true),
    Regex(@"onerror\s*=", true),
    Regex(@"onload\s*=", true)
  ]

  const PATH_TRAVERSAL_PATTERNS: seq<Regex> := [
    Regex(@"\.\./", false),
    Regex(@"\.\.\\", false),
    Regex(@"/etc/passwd", false),
    Regex(@"/etc/shadow", false)
  ]

  const COMMAND_INJECTION_PATTERNS: seq<Regex> := [
    Regex(@";\s*cat\s+", false),
    Regex(@";\s*ls\s+", false),
    Regex(@";\s*rm\s+", false),
    Regex(@"\|\s*cat\s+", false),
    Regex(@"`.*`", false),
    Regex(@"\$\(.*\)", false)
  ]

  /** The path-traversal patterns above with their backslash escapes removed: they contain no
      other regular-expression operator, so each matches exactly this literal text, and they
      are searched case-sensitively. */
  const PATH_TRAVERSAL_LITERALS: seq<string> := ["../", @"..\", "/etc/passwd", "/etc/shadow"]

  /** `for pattern in ...: if re.search(...): return True` — some pattern of the list matches. */
  function AnyMatches(search: Search, patterns: seq<Regex>, text: string): (r: bool)
    ensures r <==> exists i :: 0 <= i < |patterns| && search(patterns[i], text)
  {
    if |patterns| == 0 then false
    else if search(patterns[0], text) then true
    else
      var r := AnyMatches(search, patterns[1..], text);
      assert forall i :: 1 <= i < |patterns| ==> patterns[i] == patterns[1..][i - 1];
      r
  }

  /** `sub` occurs in `s` starting at position `i`. */
  predicate OccursAt(s: string, sub: string, i: int) {
    0 <= i && i + |sub| <= |s| && s[i..i + |sub|] == sub
  }

  /** `sub` occurs in `s` as a contiguous run of characters (case-sensitive). */
  function HasSubstring(s: string, sub: string): (r: bool)
    ensures r <==> exists i :: OccursAt(s, sub, i)
    decreases |s|
  {
    if |s| < |sub| then false
    else if s[..|sub|] == sub then
      assert OccursAt(s, sub, 0);
      true
    else
      var r := HasSubstring(s[1..], sub);
      OccursShift(s, sub);
      r
  }

  /** Past a mismatch at the front, occurrences in `s` are those in `s[1..]`, shifted by one. */
  lemma OccursShift(s: string, sub: string)
    requires |s| >= |sub| && s[..|sub|] != sub
    ensures (exists i :: OccursAt(s, sub, i)) <==> (exists i :: OccursAt(s[1..], sub, i))
  {
    if exists i :: OccursAt(s, sub, i) {
      var i :| OccursAt(s, sub, i);
      assert i >= 1;
      assert s[1..][i - 1..i - 1 + |sub|] == s[i..i + |sub|];
      assert OccursAt(s[1..], sub, i - 1);
    }
    if exists i :: OccursAt(s[1..], sub, i) {
      var i :| OccursAt(s[1..], sub, i);
      assert s[i + 1..i + 1 + |sub|] == s[1..][i..i + |sub|];
      assert OccursAt(s, sub, i + 1);
    }
  }

  /** Some literal of the list occurs in `s`. */
  function AnyLiteral(s: string, lits: seq<string>): (r: bool)
    ensures r <==> exists i :: 0 <= i < |lits| && HasSubstring(s, lits[i])
  {
    if |lits| == 0 then false
    else if HasSubstring(s, lits[0]) then true
    else
      var r := AnyLiteral(s, lits[1..]);
      assert forall i :: 1 <= i < |lits| ==> lits[i] == lits[1..][i - 1];
      r
  }

  /** `detect_sql_injection`. */
  function DetectSqlInjection(search: Search, request: string): bool {
    AnyMatches(search, SQL_INJECTION_PATTERNS, request)
  }

  /** `detect_xss`. */
  function DetectXss(search: Search, request: string): bool {
    AnyMatches(search, XSS_PATTERNS, request)
  }

  /** `detect_path_traversal`, with the literal meaning of its patterns. */
  function DetectPathTraversal(request: string): (r: bool)
    ensures r <==> HasSubstring(request, "../") || HasSubstring(request, @"..\")
                   || HasSubstring(request, "/etc/passwd") || HasSubstring(request, "/etc/shadow")
  {
    var lits := PATH_TRAVERSAL_LITERALS;
    assert lits[0] == "../" && lits[1] == @"..\" && lits[2] == "/etc/passwd" && lits[3] == "/etc/shadow";
    AnyLiteral(request, lits)
  }

  /** `detect_command_injection`. */
  function DetectCommandInjection(search: Search, request: string): bool {
    AnyMatches(search, COMMAND_INJECTION_PATTERNS, request)
  }

  /** The detector of one category. */
  function Detected(search: Search, c: Category, request: string): bool {
    match c
    case SQL_INJECTION => DetectSqlInjection(search, request)
    case XSS => DetectXss(search, request)
    case PATH_TRAVERSAL => DetectPathTraversal(request)
    case COMMAND_INJECTION => DetectCommandInjection(search, request)
  }

  /** Position of a category in the order the source appends them. */
  function CategoryRank(c: Category): nat {
    match c
    case SQL_INJECTION => 0
    case XSS => 1
    case PATH_TRAVERSAL => 2
    case COMMAND_INJECTION => 3
  }

  /** Categories listed in the source's order, none twice. */
  predicate InOrder(cs: seq<Category>) {
    forall i, j :: 0 <= i < j < |cs| ==> CategoryRank(cs[i]) < CategoryRank(cs[j])
  }

  /** Every category, in the order the source tests and appends them. */
  const CATEGORIES: seq<Category> := [SQL_INJECTION, XSS, PATH_TRAVERSAL, COMMAND_INJECTION]

  /** The categories of `cs` whose detector fires, in the order of `cs`. */
  function Matched(search: Search, cs: seq<Category>, request: string): (r: seq<Category>)
    ensures forall c :: c in r <==> c in cs && Detected(search, c, request)
    ensures InOrder(cs) ==> InOrder(r)
  {
    if |cs| == 0 then []
    else
      var rest := Matched(search, cs[1..], request);
      assert forall c :: c in cs <==> c == cs[0] || c in cs[1..];
      InOrderTail(cs);
      var head := if Detected(search, cs[0], request) then [cs[0]] else [];
      InOrderCons(head, rest);
      head + rest
  }

  /** The tail of an ordered sequence is ordered and ranks above its head. */
  lemma InOrderTail(cs: seq<Category>)
    requires |cs| > 0
    ensures InOrder(cs) ==> InOrder(cs[1..]) && forall c :: c in cs[1..] ==> CategoryRank(cs[0]) < CategoryRank(c)
  {
    if InOrder(cs) {
      assert forall k :: 0 <= k < |cs[1..]| ==> cs[1..][k] == cs[k + 1];
    }
  }

  /** Prefixing at most one category ranked below all the rest keeps the order. */
  lemma InOrderCons(head: seq<Category>, rest: seq<Category>)
    requires |head| <= 1
    ensures InOrder(rest) && (forall h, c :: h in head && c in rest ==> CategoryRank(h) < CategoryRank(c))
            ==> InOrder(head + rest)
  {
    var r := head + rest;
    if InOrder(rest) && (forall h, c :: h in head && c in rest ==> CategoryRank(h) < CategoryRank(c)) {
      forall i, j | 0 <= i < j < |r|
        ensures CategoryRank(r[i]) < CategoryRank(r[j])
      {
        assert r[j] == rest[j - |head|] && r[j] in rest;
        if i >= |head| {
          assert r[i] == rest[i - |head|];
        } else {
          assert r[i] in head;
        }
      }
    }
  }

  /** The `attack_types` list built by `analyze_request`: exactly the matched categories,
      each once, in the order SQL_INJECTION, XSS, PATH_TRAVERSAL, COMMAND_INJECTION. */
  function AttackTypes(search: Search, request: string): (r: seq<Category>)
    ensures forall c :: c in r <==> Detected(search, c, request)
    ensures InOrder(r)
  {
    forall c
      ensures c in CATEGORIES
    {
      assert CATEGORIES[CategoryRank(c)] == c;
    }
    Matched(search, CATEGORIES, request)
  }

  /** `_calculate_threat_level` of the HTTP detector. */
  function HttpThreatLevel(attackTypes: seq<Category>): (l: Level)
    ensures l != LOW
    ensures l == CRITICAL <==> |attackTypes| >= 3
    ensures l == MEDIUM <==> |attackTypes| < 2 && SQL_INJECTION !in attackTypes
                              && COMMAND_INJECTION !in attackTypes
    ensures SQL_INJECTION in attackTypes || COMMAND_INJECTION in attackTypes ==> Rank(l) >= Rank(HIGH)
  {
    if |attackTypes| >= 3 then CRITICAL
    else if SQL_INJECTION in attackTypes || COMMAND_INJECTION in attackTypes then HIGH
    else if |attackTypes| >= 2 then HIGH
    else MEDIUM
  }

  /** A list of categories in order has as many distinct members as entries. */
  lemma {:induction false} InOrderCard(cs: seq<Category>)
    requires InOrder(cs)
    ensures |set c | c in cs| == |cs|
  {
    if |cs| > 0 {
      var init, last := cs[..|cs| - 1], cs[|cs| - 1];
      assert forall k :: 0 <= k < |init| ==> init[k] == cs[k];
      InOrderCard(init);
      assert forall k :: 0 <= k < |init| ==> CategoryRank(init[k]) < CategoryRank(last);
      assert cs == init + [last];
      CardSnoc(init, last);
    }
  }

  /** Appending a new category adds one to the number of distinct categories. */
  lemma CardSnoc(init: seq<Category>, last: Category)
    requires last !in init
    ensures |set c | c in init + [last]| == |set c | c in init| + 1
  {
    assert (set c | c in init + [last]) == (set c | c in init) + {last};
  }

  /** Matching more categories never lowers the severity. */
  lemma MoreCategoriesNeverLower(a: seq<Category>, b: seq<Category>)
    requires InOrder(a) && InOrder(b)
    requires forall c :: c in a ==> c in b
    ensures Rank(HttpThreatLevel(a)) <= Rank(HttpThreatLevel(b))
  {
    InOrderCard(a);
    InOrderCard(b);
    var sa, sb := set c | c in a, set c | c in b;
    assert sb == sa + (sb - sa);
    assert |a| <= |b|;
  }

  /** `request_string[:200]`. */
  function Truncate(request: string): (r: string)
    ensures |r| <= 200 && |r| <= |request|
    ensures r == request[..|r|]
    ensures |r| == if |request| <= 200 then |request| else 200
  {
    if |request| <= 200 then request else request[..200]
  }

  /** A new detector with its 100-bucket tracker. */
  function NewHttpDetector(h: string -> int): (d: HttpDetector)
    ensures HttpValid(d, h)
    ensures d.detectedAttacks == []
  {
    HttpDetector(HashTables.Empty(100, h), [])
  }

  /** How many detections came from `ip`. */
  function AttacksFrom(attacks: seq<Attack>, ip: string): nat {
    if |attacks| == 0 then 0
    else AttacksFrom(attacks[..|attacks| - 1], ip) + (if attacks[|attacks| - 1].ip == ip then 1 else 0)
  }

  /** The detector's invariant: the tracker is a valid table holding, for every address, its
      number of detections (no entry for addresses never detected), and every detection lists
      at least one category, in order. */
  ghost predicate HttpValid(d: HttpDetector, h: string -> int) {
    && HashTables.Valid(d.tracker, h)
    && (forall ip :: HashTables.Get(d.tracker, h, ip)
                     == if AttacksFrom(d.detectedAttacks, ip) == 0 then None
                        else Some(AttacksFrom(d.detectedAttacks, ip) as int))
    && (forall a :: a in d.detectedAttacks ==> a.attackTypes != [] && InOrder(a.attackTypes))
  }

  /** `analyze_request`: with no category matched, `None` and nothing changes; otherwise the
      address's tracker count rises by one and exactly one detection is recorded and returned. */
  function AnalyzeRequest(d: HttpDetector, h: string -> int, search: Search, ip: string, request: string)
    : (r: (HttpDetector, Option<Attack>))
    requires HashTables.Shaped(d.tracker)
    ensures r.1.None? <==> forall c :: !Detected(search, c, request)
    ensures r.1.None? ==> r.0 == d
    ensures HashTables.Shaped(r.0.tracker)
    ensures r.1.Some? ==> && r.1.value.ip == ip
                          && r.1.value.attackTypes == AttackTypes(search, request)
                          && r.1.value.request == Truncate(request)
                          && r.1.value.threatLevel == HttpThreatLevel(r.1.value.attackTypes)
                          && r.0.detectedAttacks == d.detectedAttacks + [r.1.value]
                          && HashTables.Get(r.0.tracker, h, ip)
                             == Some(HashTables.Get(d.tracker, h, ip).GetOr(0) + 1)
    ensures forall other :: other != ip ==> HashTables.Get(r.0.tracker, h, other) == HashTables.Get(d.tracker, h, other)
    ensures HttpValid(d, h) ==> HttpValid(r.0, h)
  {
    var attackTypes := AttackTypes(search, request);
    if attackTypes == [] then
      assert SQL_INJECTION !in attackTypes;
      (d, None)
    else
      assert Detected(search, attackTypes[0], request);
      var tracker := BumpTracker(d.tracker, h, ip);
      var attack := Attack(ip, attackTypes, Truncate(request), HttpThreatLevel(attackTypes));
      var r := HttpDetector(tracker, d.detectedAttacks + [attack]);
      AnalyzeKeepsValid(d, h, attack, tracker);
      (r, Some(attack))
  }

  /** `self.ip_tracker[ip] = self.ip_tracker.get(ip, 0) + 1`. */
  function BumpTracker(t: HashTables.HashTable<string, int>, h: string -> int, ip: string)
    : (r: HashTables.HashTable<string, int>)
    requires HashTables.Shaped(t)
    ensures HashTables.Shaped(r)
    ensures HashTables.Get(r, h, ip) == Some(HashTables.Get(t, h, ip).GetOr(0) + 1)
    ensures forall other :: other != ip ==> HashTables.Get(r, h, other) == HashTables.Get(t, h, other)
    ensures HashTables.Valid(t, h) ==> HashTables.Valid(r, h)
  {
    HashTables.Insert(t, h, ip, HashTables.Get(t, h, ip).GetOr(0) + 1)
  }

  /** Recording one more detection from `a.ip`, with the tracker bumped for that address,
      keeps the invariant. */
  lemma AnalyzeKeepsValid(d: HttpDetector, h: string -> int, a: Attack, tracker: HashTables.HashTable<string, int>)
    requires HashTables.Shaped(d.tracker)
    requires a.attackTypes != [] && InOrder(a.attackTypes)
    requires HashTables.Valid(d.tracker, h) ==> HashTables.Valid(tracker, h)
    requires HashTables.Shaped(tracker)
    requires HashTables.Get(tracker, h, a.ip) == Some(HashTables.Get(d.tracker, h, a.ip).GetOr(0) + 1)
    requires forall other :: other != a.ip ==> HashTables.Get(tracker, h, other) == HashTables.Get(d.tracker, h, other)
    ensures HttpValid(d, h) ==> HttpValid(HttpDetector(tracker, d.detectedAttacks + [a]), h)
  {
    var attacks := d.detectedAttacks + [a];
    assert attacks[..|attacks| - 1] == d.detectedAttacks;
    if HttpValid(d, h) {
      forall ip
        ensures HashTables.Get(tracker, h, ip)
                == if AttacksFrom(attacks, ip) == 0 then None else Some(AttacksFrom(attacks, ip) as int)
      {
      }
    }
  }

  /** The number of times category `c` is listed over all detections. */
  function Occurrences(attacks: seq<Attack>, c: Category): nat {
    if |attacks| == 0 then 0
    else Occurrences(attacks[..|attacks| - 1], c) + multiset(attacks[|attacks| - 1].attackTypes)[c]
  }

  /** The number of detections that list category `c`. */
  function Listing(attacks: seq<Attack>, c: Category): nat {
    if |attacks| == 0 then 0
    else Listing(attacks[..|attacks| - 1], c) + (if c in attacks[|attacks| - 1].attackTypes then 1 else 0)
  }

  /** The count recorded for `c`, zero when absent (`dict.get(c, 0)`). */
  function CountOr0(m: map<Category, nat>, c: Category): nat {
    if c in m then m[c] else 0
  }

  /** `attack_types_count[t] = attack_types_count.get(t, 0) + 1` for each `t` of one list. */
  function BumpAll(m: map<Category, nat>, cs: seq<Category>): (r: map<Category, nat>)
    ensures forall c :: CountOr0(r, c) == CountOr0(m, c) + multiset(cs)[c]
    ensures forall c :: c in r <==> c in m || c in cs
    ensures (forall c :: c in m ==> m[c] > 0) ==> forall c :: c in r ==> r[c] > 0
    decreases |cs|
  {
    if |cs| == 0 then m
    else
      assert cs == [cs[0]] + cs[1..];
      assert forall c :: c in cs <==> c == cs[0] || c in cs[1..];
      BumpAll(m[cs[0] := CountOr0(m, cs[0]) + 1], cs[1..])
  }

  /** The `by_type` loop over all detections. */
  function TypeTally(attacks: seq<Attack>): (r: map<Category, nat>)
    ensures forall c :: CountOr0(r, c) == Occurrences(attacks, c)
    ensures forall c :: c in r ==> r[c] > 0
  {
    if |attacks| == 0 then map[]
    else BumpAll(TypeTally(attacks[..|attacks| - 1]), attacks[|attacks| - 1].attackTypes)
  }

  /** When no detection lists a category twice, counting occurrences counts detections. */
  lemma {:induction false} OccurrencesAreListings(attacks: seq<Attack>, c: Category)
    requires forall a :: a in attacks ==> InOrder(a.attackTypes)
    ensures Occurrences(attacks, c) == Listing(attacks, c)
  {
    if |attacks| > 0 {
      var n := |attacks| - 1;
      assert forall a :: a in attacks[..n] ==> a in attacks;
      OccurrencesAreListings(attacks[..n], c);
      InOrderMultiplicity(attacks[n].attackTypes, c);
    }
  }

  /** In a list in order, a category occurs once if present and not at all otherwise. */
  lemma {:induction false} InOrderMultiplicity(cs: seq<Category>, c: Category)
    requires InOrder(cs)
    ensures multiset(cs)[c] == if c in cs then 1 else 0
  {
    if |cs| > 0 {
      var init := cs[..|cs| - 1];
      assert cs == init + [cs[|cs| - 1]];
      InOrderMultiplicity(init, c);
      assert cs[|cs| - 1] !in init;
    }
  }

  /** `get_attack_summary`. */
  function GetAttackSummary(d: HttpDetector): (s: AttackSummary)
    ensures s.totalAttacks == |d.detectedAttacks|
    ensures forall c :: CountOr0(s.byType, c) == Occurrences(d.detectedAttacks, c)
    ensures forall c :: c in s.byType ==> s.byType[c] > 0
    ensures d.detectedAttacks == [] ==> s == AttackSummary(0, 0, map[])
  {
    if |d.detectedAttacks| == 0 then AttackSummary(0, 0, map[])
    else AttackSummary(|d.detectedAttacks|, HashTables.Len(d.tracker), TypeTally(d.detectedAttacks))
  }

  /** On a detector that keeps its invariant, the summary's `unique_ips` is the number of
      distinct detected addresses and `by_type[t]` is the number of detections listing `t`. */
  lemma SummaryCounts(d: HttpDetector, h: string -> int)
    requires HttpValid(d, h)
    ensures GetAttackSummary(d).uniqueIps == |set a | a in d.detectedAttacks :: a.ip|
    ensures forall c :: CountOr0(GetAttackSummary(d).byType, c) == Listing(d.detectedAttacks, c)
  {
    forall c
      ensures Occurrences(d.detectedAttacks, c) == Listing(d.detectedAttacks, c)
    {
      OccurrencesAreListings(d.detectedAttacks, c);
    }
    var t := d.tracker;
    var keys := set k | k in HashTables.Firsts(HashTables.Flatten(t.table));
    var ips := set a | a in d.detectedAttacks :: a.ip;
    HashTables.CountIsKeyCount(t, h);
    forall k
      ensures k in keys <==> k in ips
    {
      HashTables.KeysAreStoredKeys(t, h, k);
      AttacksFromPositive(d.detectedAttacks, k);
    }
    assert keys == ips;
    if d.detectedAttacks == [] {
      assert ips == {};
    }
  }

  /** An address has detections iff some detection came from it. */
  lemma {:induction false} AttacksFromPositive(attacks: seq<Attack>, ip: string)
    ensures AttacksFrom(attacks, ip) > 0 <==> exists a :: a in attacks && a.ip == ip
  {
    if |attacks| > 0 {
      var n := |attacks| - 1;
      AttacksFromPositive(attacks[..n], ip);
      assert attacks == attacks[..n] + [attacks[n]];
    }
  }
}

=== FILE: ids.dfy ===
/** The controller: one scan-and-respond cycle over an attempt map, and the monitoring loop
    that repeats it until interrupted. The database and the file logger are collaborators
    whose calls are recorded as an event trace; the blocker is the `Blockers` model acting on
    the record file, with the firewall's answer per address as a parameter. */
module Ids {
  import opened Levels
  import opened Detectors
  import opened Blockers
  import opened Wrappers

  /** One call into a collaborator, in the order the controller makes it. */
  datatype Event =
    | LogThreat(threat: Threat)                                   // logger.log_threat
    | SaveThreat(threat: Threat)                                  // db.save_threat
    | BlockRequested(ip: string, ok: bool)                        // blocker.block_ip and its result
    | MarkBlocked(ip: string)                                     // db.mark_as_blocked
    | SaveBlockedIp(ip: string, level: Level, attempts: int)      // db.save_blocked_ip
    | LogBlock(ip: string, level: Level)                          // logger.log_block
    | LogError(ip: string)                                        // logger.log_error

  /** The controller's state: the detector, the blocker's record file and the loop flag. */
  datatype IdsState = IdsState(detector: Detector, blockerFile: Option<string>, running: bool)

  /** The constructor (interval and collaborators aside). */
  function NewIds(threshold: int, existingRecord: Option<string>, ts: Stamp): (ids: IdsState)
    ensures !ids.running
    ensures ids.detector.threshold == threshold && ids.detector.history == []
    ensures GetBlockedIps(ids.blockerFile) == GetBlockedIps(existingRecord)
  {
    IdsState(NewDetector(threshold), NewBlocker(existingRecord, ts), false)
  }

  /** The levels that trigger a block. */
  predicate BlockWorthy(l: Level) {
    l == HIGH || l == CRITICAL
  }

  /** The threats saved to the database, in order. */
  function Saved(events: seq<Event>): seq<Threat> {
    if |events| == 0 then []
    else (if events[0].SaveThreat? then [events[0].threat] else []) + Saved(events[1..])
  }

  /** The threats passed to `log_threat`, in order. */
  function Logged(events: seq<Event>): seq<Threat> {
    if |events| == 0 then []
    else (if events[0].LogThreat? then [events[0].threat] else []) + Logged(events[1..])
  }

  /** The addresses passed to the blocker, in order. */
  function Requested(events: seq<Event>): seq<string> {
    if |events| == 0 then []
    else (if events[0].BlockRequested? then [events[0].ip] else []) + Requested(events[1..])
  }

  /** The addresses of the threats whose level triggers a block, in order. */
  function WorthyIps(threats: seq<Threat>): seq<string> {
    if |threats| == 0 then []
    else (if BlockWorthy(threats[0].level) then [threats[0].ip] else []) + WorthyIps(threats[1..])
  }

  /** The calls made once the blocker has answered `ok` for `t`. */
  function Aftermath(t: Threat, ok: bool): seq<Event> {
    if ok then [MarkBlocked(t.ip), SaveBlockedIp(t.ip, t.level, t.attempts), LogBlock(t.ip, t.level)]
    else [LogError(t.ip)]
  }

  /** The calls answering one threat: log it, save it, and for a HIGH or CRITICAL one request
      the block and make the calls that follow the blocker's answer `ok`, all carrying the
      threat's own address, level and attempt count. */
  function Reply(t: Threat, ok: bool): (r: seq<Event>)
    ensures |r| >= 2
  {
    [LogThreat(t), SaveThreat(t)] + (if BlockWorthy(t.level) then [BlockRequested(t.ip, ok)] + Aftermath(t, ok) else [])
  }

  /** The blocker's answer in a trace that starts with a reply. */
  function ReplyOk(events: seq<Event>): bool {
    |events| > 2 && events[2].BlockRequested? && events[2].ok
  }

  /** The response grammar: the trace is a run of replies, one after another. */
  predicate Ordered(events: seq<Event>)
    decreases |events|
  {
    if |events| == 0 then true
    else
      events[0].LogThreat? &&
      var reply := Reply(events[0].threat, ReplyOk(events));
      |reply| <= |events| && events[..|reply|] == reply && Ordered(events[|reply|..])
  }

  lemma SavedAppend(a: seq<Event>, b: seq<Event>)
    ensures Saved(a + b) == Saved(a) + Saved(b)
    ensures Logged(a + b) == Logged(a) + Logged(b)
    ensures Requested(a + b) == Requested(a) + Requested(b)
  {
    SavedOnlyAppend(a, b);
    LoggedAppend(a, b);
    RequestedAppend(a, b);
  }

  lemma {:induction false} SavedOnlyAppend(a: seq<Event>, b: seq<Event>)
    ensures Saved(a + b) == Saved(a) + Saved(b)
  {
    if |a| == 0 {
      assert a + b == b;
    } else {
      assert (a + b)[0] == a[0] && (a + b)[1..] == a[1..] + b;
      SavedOnlyAppend(a[1..], b);
    }
  }

  lemma {:induction false} LoggedAppend(a: seq<Event>, b: seq<Event>)
    ensures Logged(a + b) == Logged(a) + Logged(b)
  {
    if |a| == 0 {
      assert a + b == b;
    } else {
      assert (a + b)[0] == a[0] && (a + b)[1..] == a[1..] + b;
      LoggedAppend(a[1..], b);
    }
  }

  lemma {:induction false} RequestedAppend(a: seq<Event>, b: seq<Event>)
    ensures Requested(a + b) == Requested(a) + Requested(b)
  {
    if |a| == 0 {
      assert a + b == b;
    } else {
      assert (a + b)[0] == a[0] && (a + b)[1..] == a[1..] + b;
      RequestedAppend(a[1..], b);
    }
  }

  lemma {:induction false} OrderedAppend(a: seq<Event>, b: seq<Event>)
    requires Ordered(a) && Ordered(b)
    ensures Ordered(a + b)
    decreases |a|
  {
    if |a| == 0 {
      assert a + b == b;
    } else {
      var t := a[0].threat;
      var reply := Reply(t, ReplyOk(a));
      var n := |reply|;
      SameReply(a, b);
      assert (a + b)[..n] == a[..n];
      assert (a + b)[n..] == a[n..] + b;
      OrderedAppend(a[n..], b);
    }
  }

  /** Whatever follows a reply does not change which reply it is. */
  lemma SameReply(a: seq<Event>, b: seq<Event>)
    requires |a| > 0 && Ordered(a)
    ensures (a + b)[0] == a[0]
    ensures Reply(a[0].threat, ReplyOk(a + b)) == Reply(a[0].threat, ReplyOk(a))
  {
    var t := a[0].threat;
    if |a| > 2 {
      assert (a + b)[2] == a[2];
    } else {
      assert !BlockWorthy(t.level);
    }
  }

  /** An ordered trace that saves exactly `t` is one reply to `t`. */
  lemma OneReply(events: seq<Event>, t: Threat)
    requires Ordered(events) && Saved(events) == [t]
    ensures events == Reply(t, ReplyOk(events))
  {
    var reply := Reply(events[0].threat, ReplyOk(events));
    var rest := events[|reply|..];
    assert events == reply + rest;
    ReplyFacts(events[0].threat, ReplyOk(events));
    SavedAppend(reply, rest);
    OrderedSaves(rest);
  }

  /** The grammar fixes the payloads: a successful block of a CRITICAL threat that saves or
      logs another level or attempt count is not an ordered trace. */
  lemma WrongPayloadRejected(t: Threat, level: Level, attempts: int)
    requires t.level == CRITICAL && (level != t.level || attempts != t.attempts)
    ensures !Ordered([LogThreat(t), SaveThreat(t), BlockRequested(t.ip, true), MarkBlocked(t.ip),
                      SaveBlockedIp(t.ip, level, attempts), LogBlock(t.ip, level)])
  {
    var e := [LogThreat(t), SaveThreat(t), BlockRequested(t.ip, true), MarkBlocked(t.ip),
              SaveBlockedIp(t.ip, level, attempts), LogBlock(t.ip, level)];
    assert Reply(t, ReplyOk(e))[4] == SaveBlockedIp(t.ip, t.level, t.attempts);
  }

  /** Every reply saves its threat, so a non-empty ordered trace saves something. */
  lemma OrderedSaves(events: seq<Event>)
    requires Ordered(events)
    ensures events != [] ==> Saved(events) != []
  {
    if events != [] {
      var reply := Reply(events[0].threat, ReplyOk(events));
      assert events == reply + events[|reply|..];
      ReplyFacts(events[0].threat, ReplyOk(events));
      SavedAppend(reply, events[|reply|..]);
    }
  }

  /** A requested address shows up in `Requested`. */
  lemma {:induction false} RequestedHolds(events: seq<Event>, ip: string, ok: bool)
    requires BlockRequested(ip, ok) in events
    ensures ip in Requested(events)
  {
    if events[0] != BlockRequested(ip, ok) {
      RequestedHolds(events[1..], ip, ok);
    }
  }

  /** What one event contributes. */
  lemma Single(e: Event)
    ensures Saved([e]) == (if e.SaveThreat? then [e.threat] else [])
    ensures Logged([e]) == (if e.LogThreat? then [e.threat] else [])
    ensures Requested([e]) == (if e.BlockRequested? then [e.ip] else [])
  {
    assert [e][1..] == [];
  }

  lemma {:induction false} WorthyIpsAppend(a: seq<Threat>, b: seq<Threat>)
    ensures WorthyIps(a + b) == WorthyIps(a) + WorthyIps(b)
  {
    if |a| == 0 {
      assert a + b == b;
    } else {
      assert (a + b)[0] == a[0] && (a + b)[1..] == a[1..] + b;
      WorthyIpsAppend(a[1..], b);
    }
  }

  /** The response to one threat: log it, save it, and for a HIGH or CRITICAL one ask the
      blocker; on success record the block, on failure log an error. */
  function Respond(file: Option<string>, t: Threat, firewall: string -> bool, ts: Stamp): (r: (Option<string>, seq<Event>))
    ensures r.1 == Reply(t, BlockIp(file, t.ip, firewall(t.ip), ts).ok)
    ensures |r.1| >= 2 && r.1[..2] == [LogThreat(t), SaveThreat(t)]
    ensures Logged(r.1) == [t]
    ensures Saved(r.1) == [t]
    ensures Requested(r.1) == WorthyIps([t])
    ensures Ordered(r.1)
    ensures !BlockWorthy(t.level) ==> r.0 == file
    ensures BlockWorthy(t.level) ==> r.0 == BlockIp(file, t.ip, firewall(t.ip), ts).file
    ensures BlockRequested(t.ip, true) in r.1 <==> BlockWorthy(t.level) && BlockIp(file, t.ip, firewall(t.ip), ts).ok
    ensures Complete(file) ==> Complete(r.0)
  {
    var o := BlockIp(file, t.ip, firewall(t.ip), ts);
    ReplyFacts(t, o.ok);
    assert WorthyIps([t]) == if BlockWorthy(t.level) then [t.ip] else [] by {
      assert [t][1..] == [];
    }
    (if BlockWorthy(t.level) then o.file else file, Reply(t, o.ok))
  }

  /** What one reply saves, logs and requests, and that it is a trace of the grammar. */
  lemma ReplyFacts(t: Threat, ok: bool)
    ensures var r := Reply(t, ok);
            && Saved(r) == [t] && Logged(r) == [t]
            && Requested(r) == (if BlockWorthy(t.level) then [t.ip] else [])
            && Ordered(r)
            && (BlockRequested(t.ip, true) in r <==> BlockWorthy(t.level) && ok)
  {
    var r := Reply(t, ok);
    if BlockWorthy(t.level) {
      BlockTrace(t, ok);
      assert r == [LogThreat(t), SaveThreat(t)] + [BlockRequested(t.ip, ok)] + Aftermath(t, ok);
      assert r[2] == BlockRequested(t.ip, ok);
    } else {
      HeadTrace(t);
      assert r == [LogThreat(t), SaveThreat(t)];
      assert Reply(t, ReplyOk(r)) == r;
    }
    assert r[|r|..] == [];
  }

  lemma HeadTrace(t: Threat)
    ensures Saved([LogThreat(t), SaveThreat(t)]) == [t]
    ensures Logged([LogThreat(t), SaveThreat(t)]) == [t]
    ensures Requested([LogThreat(t), SaveThreat(t)]) == []
    ensures BlockRequested(t.ip, true) !in [LogThreat(t), SaveThreat(t)]
  {
    var head := [LogThreat(t), SaveThreat(t)];
    assert head == [LogThreat(t)] + [SaveThreat(t)];
    Single(LogThreat(t));
    Single(SaveThreat(t));
    SavedAppend([LogThreat(t)], [SaveThreat(t)]);
  }

  /** The calls after a block request save, log and request nothing. */
  lemma AftermathQuiet(t: Threat, ok: bool)
    ensures Saved(Aftermath(t, ok)) == [] && Logged(Aftermath(t, ok)) == [] && Requested(Aftermath(t, ok)) == []
  {
    if ok {
      var m, s, l := MarkBlocked(t.ip), SaveBlockedIp(t.ip, t.level, t.attempts), LogBlock(t.ip, t.level);
      Single(m);
      Single(s);
      Single(l);
      assert Aftermath(t, ok) == [m] + [s] + [l];
      SavedAppend([m], [s]);
      SavedAppend([m] + [s], [l]);
    } else {
      Single(LogError(t.ip));
    }
  }

  lemma BlockTrace(t: Threat, ok: bool)
    ensures var events := [LogThreat(t), SaveThreat(t)] + [BlockRequested(t.ip, ok)] + Aftermath(t, ok);
            && Saved(events) == [t] && Logged(events) == [t] && Requested(events) == [t.ip]
            && (BlockRequested(t.ip, true) in events <==> ok)
  {
    var head := [LogThreat(t), SaveThreat(t)];
    var req := [BlockRequested(t.ip, ok)];
    var tail := Aftermath(t, ok);
    HeadTrace(t);
    Single(BlockRequested(t.ip, ok));
    var block := req + tail;
    AftermathQuiet(t, ok);
    SavedAppend(req, tail);
    SavedAppend(head, block);
    assert head + req + tail == head + block;
    SuccessfulBlockIn(t, ok);
  }

  /** A reply trace for a block-worthy threat holds a successful block request exactly when
      the blocker succeeded. */
  lemma SuccessfulBlockIn(t: Threat, ok: bool)
    ensures BlockRequested(t.ip, true) in [LogThreat(t), SaveThreat(t)] + [BlockRequested(t.ip, ok)] + Aftermath(t, ok) <==> ok
  {
    var events := [LogThreat(t), SaveThreat(t)] + [BlockRequested(t.ip, ok)] + Aftermath(t, ok);
    assert events[2] == BlockRequested(t.ip, ok);
    assert forall e :: e in Aftermath(t, ok) ==> !e.BlockRequested?;
  }

  /** The blocker's record under one response: entries are kept, and a reported success
      leaves the threat's address recorded. */
  lemma RespondRecords(file: Option<string>, t: Threat, firewall: string -> bool, ts: Stamp)
    requires Complete(file) && Recordable(t.ip)
    ensures var r := Respond(file, t, firewall, ts);
            && (forall x :: IsBlocked(file, x) ==> IsBlocked(r.0, x))
            && (forall ip :: BlockRequested(ip, true) in r.1 ==> ip == t.ip && IsBlocked(r.0, ip))
  {
    var r := Respond(file, t, firewall, ts);
    assert WorthyIps([t]) == if BlockWorthy(t.level) then [t.ip] else [] by {
      assert [t][1..] == [];
    }
    forall ip | BlockRequested(ip, true) in r.1
      ensures ip == t.ip
    {
      RequestedHolds(r.1, ip, true);
    }
    if BlockWorthy(t.level) {
      var o := BlockIp(file, t.ip, firewall(t.ip), ts);
      assert r.0 == o.file;
      KeepsRecord(file, t.ip, firewall(t.ip), ts);
    }
  }

  /** `block_ip` on a complete record only ever adds to it. */
  lemma KeepsRecord(file: Option<string>, ip: string, firewallOk: bool, ts: Stamp)
    requires Complete(file) && Recordable(ip)
    ensures var o := BlockIp(file, ip, firewallOk, ts);
            && (forall x :: IsBlocked(file, x) ==> IsBlocked(o.file, x))
            && (o.ok ==> IsBlocked(o.file, ip))
  {
    var o := BlockIp(file, ip, firewallOk, ts);
    if !IsBlocked(file, ip) && firewallOk {
      assert GetBlockedIps(o.file) == GetBlockedIps(file) + [ip];
    }
  }

  /** The responses to `threats`, in order. */
  function RespondAll(file: Option<string>, threats: seq<Threat>, firewall: string -> bool, ts: Stamp): (r: (Option<string>, seq<Event>))
    decreases |threats|
    ensures Saved(r.1) == threats
    ensures Logged(r.1) == threats
    ensures Requested(r.1) == WorthyIps(threats)
    ensures Ordered(r.1)
    ensures threats == [] ==> r == (file, [])
    ensures Complete(file) ==> Complete(r.0)
  {
    if |threats| == 0 then (file, [])
    else
      var first := Respond(file, threats[0], firewall, ts);
      var rest := RespondAll(first.0, threats[1..], firewall, ts);
      JoinResponses(threats, first.1, rest.1);
      (rest.0, first.1 + rest.1)
  }

  /** The reply to the first threat followed by the replies to the others answers them all. */
  lemma JoinResponses(threats: seq<Threat>, a: seq<Event>, b: seq<Event>)
    requires |threats| > 0
    requires Saved(a) == [threats[0]] && Logged(a) == [threats[0]] && Requested(a) == WorthyIps([threats[0]]) && Ordered(a)
    requires Saved(b) == threats[1..] && Logged(b) == threats[1..] && Requested(b) == WorthyIps(threats[1..]) && Ordered(b)
    ensures Saved(a + b) == threats && Logged(a + b) == threats
    ensures Requested(a + b) == WorthyIps(threats) && Ordered(a + b)
  {
    JoinProjections(threats, a, b);
    OrderedAppend(a, b);
  }

  /** The projections part of `JoinResponses`. */
  lemma JoinProjections(threats: seq<Threat>, a: seq<Event>, b: seq<Event>)
    requires |threats| > 0
    requires Saved(a) == [threats[0]] && Logged(a) == [threats[0]] && Requested(a) == WorthyIps([threats[0]])
    requires Saved(b) == threats[1..] && Logged(b) == threats[1..] && Requested(b) == WorthyIps(threats[1..])
    ensures Saved(a + b) == threats && Logged(a + b) == threats
    ensures Requested(a + b) == WorthyIps(threats)
  {
    SavedAppend(a, b);
    WorthyIpsAppend([threats[0]], threats[1..]);
    assert [threats[0]] + threats[1..] == threats;
  }

  /** Over a whole scan, recorded addresses stay recorded and every reported block is in the
      record. */
  lemma {:induction false} RespondAllRecords(file: Option<string>, threats: seq<Threat>, firewall: string -> bool, ts: Stamp)
    requires Complete(file) && forall t :: t in threats ==> Recordable(t.ip)
    decreases |threats|
    ensures var r := RespondAll(file, threats, firewall, ts);
            && (forall x :: IsBlocked(file, x) ==> IsBlocked(r.0, x))
            && (forall ip :: BlockRequested(ip, true) in r.1 ==> IsBlocked(r.0, ip))
  {
    if |threats| > 0 {
      var first := Respond(file, threats[0], firewall, ts);
      var rest := RespondAll(first.0, threats[1..], firewall, ts);
      assert threats[0] in threats;
      RespondRecords(file, threats[0], firewall, ts);
      RespondAllRecords(first.0, threats[1..], firewall, ts);
      forall ip | BlockRequested(ip, true) in first.1 + rest.1
        ensures IsBlocked(rest.0, ip)
      {
        if BlockRequested(ip, true) !in rest.1 {
          assert BlockRequested(ip, true) in first.1;
        }
      }
    }
  }

  /** `scan_and_respond`: with an empty attempt map nothing happens; otherwise the detector
      surfaces its threats and each is answered in turn. */
  function ScanAndRespond(ids: IdsState, attempts: seq<(string, int)>, firewall: string -> bool, ts: Stamp): (r: (IdsState, seq<Event>))
    ensures attempts == [] ==> r == (ids, [])
    ensures Saved(r.1) == Surface(ids.detector.threshold, attempts)
    ensures Logged(r.1) == Saved(r.1)
    ensures r.0.detector.threshold == ids.detector.threshold
    ensures r.0.detector.history == ids.detector.history + Saved(r.1)
    ensures Requested(r.1) == WorthyIps(Saved(r.1))
    ensures Ordered(r.1)
    ensures r.0.running == ids.running
    ensures Complete(ids.blockerFile) ==> Complete(r.0.blockerFile)
  {
    if |attempts| == 0 then (ids, [])
    else
      var (detector, threats) := DetectThreats(ids.detector, attempts);
      var (file, events) := RespondAll(ids.blockerFile, threats, firewall, ts);
      (IdsState(detector, file, ids.running), events)
  }

  /** A scan keeps every recorded address recorded, and each address it reports blocked is in
      the record afterwards. */
  lemma ScanRecords(ids: IdsState, attempts: seq<(string, int)>, firewall: string -> bool, ts: Stamp)
    requires Complete(ids.blockerFile) && forall e :: e in attempts ==> Recordable(e.0)
    ensures var r := ScanAndRespond(ids, attempts, firewall, ts);
            && (forall x :: IsBlocked(ids.blockerFile, x) ==> IsBlocked(r.0.blockerFile, x))
            && (forall ip :: BlockRequested(ip, true) in r.1 ==> IsBlocked(r.0.blockerFile, ip))
  {
    if |attempts| > 0 {
      var threats := DetectThreats(ids.detector, attempts).1;
      assert forall t :: t in threats ==> (t.ip, t.attempts) in attempts;
      RespondAllRecords(ids.blockerFile, threats, firewall, ts);
    }
  }
  /** The addresses, in order, that `block_ip` newly records against `file`: not yet listed
      there, and the firewall accepts the rule. */
  function NewlyBlocked(file: Option<string>, ips: seq<string>, firewall: string -> bool): seq<string> {
    if |ips| == 0 then []
    else
      (if !IsBlocked(file, ips[0]) && firewall(ips[0]) then [ips[0]] else [])
      + NewlyBlocked(file, ips[1..], firewall)
  }

  /** Only the listing of the addresses themselves matters to `NewlyBlocked`. */
  lemma {:induction false} NewlyBlockedSame(f1: Option<string>, f2: Option<string>, ips: seq<string>, firewall: string -> bool)
    requires forall ip :: ip in ips ==> (IsBlocked(f1, ip) <==> IsBlocked(f2, ip))
    ensures NewlyBlocked(f1, ips, firewall) == NewlyBlocked(f2, ips, firewall)
    decreases |ips|
  {
    if |ips| > 0 {
      assert ips[0] in ips;
      assert forall ip :: ip in ips[1..] ==> ip in ips;
      NewlyBlockedSame(f1, f2, ips[1..], firewall);
    }
  }

  lemma AppendAssociates(a: seq<string>, b: seq<string>, c: seq<string>)
    ensures (a + b) + c == a + (b + c)
  {
  }

  /** `NewlyBlocked` distributes over concatenation. */
  lemma {:induction false} NewlyBlockedAppend(file: Option<string>, a: seq<string>, b: seq<string>, firewall: string -> bool)
    ensures NewlyBlocked(file, a + b, firewall) == NewlyBlocked(file, a, firewall) + NewlyBlocked(file, b, firewall)
    decreases |a|
  {
    if |a| == 0 {
      assert a + b == b;
    } else {
      var head := if !IsBlocked(file, a[0]) && firewall(a[0]) then [a[0]] else [];
      assert (a + b)[0] == a[0] && (a + b)[1..] == a[1..] + b;
      assert NewlyBlocked(file, a + b, firewall) == head + NewlyBlocked(file, a[1..] + b, firewall);
      assert NewlyBlocked(file, a, firewall) == head + NewlyBlocked(file, a[1..], firewall);
      NewlyBlockedAppend(file, a[1..], b, firewall);
      AppendAssociates(head, NewlyBlocked(file, a[1..], firewall), NewlyBlocked(file, b, firewall));
    }
  }

  /** A block-worthy address comes from one of the threats. */
  lemma {:induction false} WorthyFrom(threats: seq<Threat>, ip: string)
    ensures ip in WorthyIps(threats) ==> exists k :: 0 <= k < |threats| && threats[k].ip == ip
    decreases |threats|
  {
    if |threats| > 0 {
      WorthyFrom(threats[1..], ip);
      if ip in WorthyIps(threats[1..]) {
        var k :| 0 <= k < |threats[1..]| && threats[1..][k].ip == ip;
        assert threats[k + 1].ip == ip;
      }
    }
  }

  /** With distinct addresses, the first threat's address is not among the later ones. */
  lemma WorthyNotFirst(threats: seq<Threat>)
    requires |threats| > 0 && DistinctIps(threats)
    ensures threats[0].ip !in WorthyIps(threats[1..])
  {
    WorthyFrom(threats[1..], threats[0].ip);
    forall k | 0 <= k < |threats[1..]|
      ensures threats[1..][k].ip != threats[0].ip
    {
      assert threats[1..][k] == threats[k + 1];
    }
  }

  /** `WorthyIps` of a single threat. */
  lemma WorthyOne(t: Threat)
    ensures WorthyIps([t]) == if BlockWorthy(t.level) then [t.ip] else []
  {
    assert [t][1..] == [];
  }

  /** `NewlyBlocked` of a single address. */
  lemma NewlyBlockedOne(file: Option<string>, ip: string, firewall: string -> bool)
    ensures NewlyBlocked(file, [ip], firewall) == if !IsBlocked(file, ip) && firewall(ip) then [ip] else []
  {
    assert [ip][1..] == [];
  }

  /** The only block request in a reply is the one for the threat's address, carrying the
      blocker's answer. */
  lemma ReplyRequests(t: Threat, ok: bool)
    ensures forall e :: e in Reply(t, ok) && e.BlockRequested? ==> e == BlockRequested(t.ip, ok)
  {
    var a := Aftermath(t, ok);
    assert forall e :: e in a ==> !e.BlockRequested?;
    if BlockWorthy(t.level) {
      assert Reply(t, ok) == [LogThreat(t), SaveThreat(t), BlockRequested(t.ip, ok)] + a;
    } else {
      assert Reply(t, ok) == [LogThreat(t), SaveThreat(t)];
    }
  }

  /** What one response does to the record. */
  lemma RespondRecord(file: Option<string>, t: Threat, firewall: string -> bool, ts: Stamp)
    requires Complete(file) && Recordable(t.ip)
    ensures var r := Respond(file, t, firewall, ts);
            GetBlockedIps(r.0) == GetBlockedIps(file) + NewlyBlocked(file, WorthyIps([t]), firewall)
  {
    WorthyOne(t);
    NewlyBlockedOne(file, t.ip, firewall);
    assert NewlyBlocked(file, [], firewall) == [];
  }

  /** What one response does to the record, and what every block request in it reports. */
  lemma RespondBlocks(file: Option<string>, t: Threat, firewall: string -> bool, ts: Stamp)
    requires Complete(file) && Recordable(t.ip)
    ensures var r := Respond(file, t, firewall, ts);
            && GetBlockedIps(r.0) == GetBlockedIps(file) + NewlyBlocked(file, WorthyIps([t]), firewall)
            && (forall ip :: ip != t.ip ==> (IsBlocked(r.0, ip) <==> IsBlocked(file, ip)))
            && (forall ip, ok :: BlockRequested(ip, ok) in r.1 ==> ip == t.ip && ok == (IsBlocked(file, ip) || firewall(ip)))
  {
    RespondRecord(file, t, firewall, ts);
    WorthyOne(t);
    NewlyBlockedOne(file, t.ip, firewall);
    var o := BlockIp(file, t.ip, firewall(t.ip), ts);
    ReplyRequests(t, o.ok);
  }

  /** Responding to a batch of threats with distinct, recordable addresses: each block request
      reports whether the address was already listed or the firewall accepted it, and the
      record gains exactly the newly blocked addresses, in order, after what it listed. */
  lemma RespondAllBlocks(file: Option<string>, threats: seq<Threat>, firewall: string -> bool, ts: Stamp)
    requires Complete(file) && DistinctIps(threats)
    requires forall t :: t in threats ==> Recordable(t.ip)
    ensures var r := RespondAll(file, threats, firewall, ts);
            && (forall ip, ok :: BlockRequested(ip, ok) in r.1 ==> ok == (IsBlocked(file, ip) || firewall(ip)))
            && GetBlockedIps(r.0) == GetBlockedIps(file) + NewlyBlocked(file, WorthyIps(threats), firewall)
  {
    RespondAllRequests(file, threats, firewall, ts);
    RespondAllRecord(file, threats, firewall, ts);
  }

  /** The first threat of a batch with distinct, recordable addresses, split off. */
  lemma SplitBatch(threats: seq<Threat>)
    requires |threats| > 0 && DistinctIps(threats)
    requires forall t :: t in threats ==> Recordable(t.ip)
    ensures Recordable(threats[0].ip) && DistinctIps(threats[1..])
    ensures forall t :: t in threats[1..] ==> Recordable(t.ip)
    ensures threats[0].ip !in WorthyIps(threats[1..])
  {
    var tail := threats[1..];
    assert threats[0] in threats;
    assert forall i :: 0 <= i < |tail| ==> tail[i] == threats[i + 1];
    assert forall u :: u in tail ==> u in threats;
    WorthyNotFirst(threats);
  }

  /** Each block request in a batch's trace reports whether the address was already listed
      or the firewall accepted it. */
  lemma {:induction false} RespondAllRequests(file: Option<string>, threats: seq<Threat>, firewall: string -> bool, ts: Stamp)
    requires Complete(file) && DistinctIps(threats)
    requires forall t :: t in threats ==> Recordable(t.ip)
    ensures var r := RespondAll(file, threats, firewall, ts);
            forall ip, ok :: BlockRequested(ip, ok) in r.1 ==> ok == (IsBlocked(file, ip) || firewall(ip))
    decreases |threats|
  {
    if |threats| > 0 {
      var t := threats[0];
      var first := Respond(file, t, firewall, ts);
      var rest := RespondAll(first.0, threats[1..], firewall, ts);
      assert RespondAll(file, threats, firewall, ts) == (rest.0, first.1 + rest.1);
      SplitBatch(threats);
      RespondBlocks(file, t, firewall, ts);
      RespondAllRequests(first.0, threats[1..], firewall, ts);
      forall ip, ok | BlockRequested(ip, ok) in rest.1
        ensures ok == (IsBlocked(file, ip) || firewall(ip))
      {
        RequestedHolds(rest.1, ip, ok);
      }
    }
  }

  /** The record gains exactly the batch's newly blocked addresses, in order. */
  lemma {:induction false} RespondAllRecord(file: Option<string>, threats: seq<Threat>, firewall: string -> bool, ts: Stamp)
    requires Complete(file) && DistinctIps(threats)
    requires forall t :: t in threats ==> Recordable(t.ip)
    ensures var r := RespondAll(file, threats, firewall, ts);
            GetBlockedIps(r.0) == GetBlockedIps(file) + NewlyBlocked(file, WorthyIps(threats), firewall)
    decreases |threats|
  {
    if |threats| == 0 {
      assert GetBlockedIps(file) + [] == GetBlockedIps(file);
    } else {
      var t := threats[0];
      var tail := threats[1..];
      var first := Respond(file, t, firewall, ts);
      var rest := RespondAll(first.0, tail, firewall, ts);
      assert RespondAll(file, threats, firewall, ts).0 == rest.0;
      SplitBatch(threats);
      RespondBlocks(file, t, firewall, ts);
      RespondAllRecord(first.0, tail, firewall, ts);
      var ws := WorthyIps(tail);
      NewlyBlockedSame(first.0, file, ws, firewall);
      WorthyIpsAppend([t], tail);
      assert [t] + tail == threats;
      NewlyBlockedAppend(file, WorthyIps([t]), ws, firewall);
      var n1, n2 := NewlyBlocked(file, WorthyIps([t]), firewall), NewlyBlocked(file, ws, firewall);
      AppendAssociates(GetBlockedIps(file), n1, n2);
    }
  }

  /** One scan over attempt counts with distinct, recordable addresses: each block request
      reports whether the address was already listed or the firewall accepted it, and the
      record gains exactly those addresses with at least ten attempts (and at least the
      threshold) that were not listed and that the firewall accepted, in order. */
  lemma ScanBlocks(ids: IdsState, attempts: seq<(string, int)>, firewall: string -> bool, ts: Stamp)
    requires Complete(ids.blockerFile) && DistinctAddresses(attempts)
    requires forall e :: e in attempts ==> Recordable(e.0)
    ensures var r := ScanAndRespond(ids, attempts, firewall, ts);
            && (forall ip, ok :: BlockRequested(ip, ok) in r.1 ==> ok == (IsBlocked(ids.blockerFile, ip) || firewall(ip)))
            && GetBlockedIps(r.0.blockerFile)
               == GetBlockedIps(ids.blockerFile) + NewlyBlocked(ids.blockerFile, TenOrMore(ids.detector.threshold, attempts), firewall)
  {
    RequestedAreTenOrMore(ids.detector.threshold, attempts);
    if |attempts| > 0 {
      var threats := DetectThreats(ids.detector, attempts).1;
      assert forall t :: t in threats ==> (t.ip, t.attempts) in attempts;
      SurfaceDistinct(ids.detector.threshold, attempts);
      RespondAllBlocks(ids.blockerFile, threats, firewall, ts);
    }
  }


  /** A threat's level triggers a block exactly when its count reaches ten. */
  lemma WorthyIffTen(t: Threat)
    requires t.level == ThreatLevel(t.attempts)
    ensures BlockWorthy(t.level) <==> t.attempts >= 10
  {
  }

  /** The blocker is asked about exactly the surfaced addresses with ten or more attempts
      (the threshold permitting), in input order. */
  lemma {:induction false} RequestedAreTenOrMore(threshold: int, attempts: seq<(string, int)>)
    ensures WorthyIps(Surface(threshold, attempts)) == TenOrMore(threshold, attempts)
  {
    if |attempts| > 0 {
      var a := attempts[..|attempts| - 1];
      var e := attempts[|attempts| - 1];
      assert attempts == a + [e];
      SurfaceAppend(threshold, a, [e]);
      WorthyIpsAppend(Surface(threshold, a), Surface(threshold, [e]));
      WorthyOfOne(threshold, e);
      RequestedAreTenOrMore(threshold, a);
      assert TenOrMore(threshold, attempts)
          == TenOrMore(threshold, a) + (if e.1 >= threshold && e.1 >= 10 then [e.0] else []);
    }
  }

  /** The block-worthy address a single count yields, if any. */
  lemma WorthyOfOne(threshold: int, e: (string, int))
    ensures WorthyIps(Surface(threshold, [e])) == if e.1 >= threshold && e.1 >= 10 then [e.0] else []
  {
    SurfaceOne(threshold, e.0, e.1);
    var s := Surface(threshold, [e]);
    if s != [] {
      assert s[1..] == [];
      WorthyIffTen(s[0]);
    }
  }


  /** Reference: the addresses of the entries meeting both the threshold and ten attempts. */
  function TenOrMore(threshold: int, attempts: seq<(string, int)>): seq<string> {
    if |attempts| == 0 then []
    else
      var e := attempts[|attempts| - 1];
      TenOrMore(threshold, attempts[..|attempts| - 1]) + (if e.1 >= threshold && e.1 >= 10 then [e.0] else [])
  }

  /** `stop`: clear the loop flag and report the detector's summary. */
  function Stop(ids: IdsState): (r: (IdsState, ThreatSummary))
    ensures !r.0.running
    ensures r.0.detector == ids.detector && r.0.blockerFile == ids.blockerFile
    ensures r.1.total == |ids.detector.history|
    ensures forall l :: CountOr0(r.1.byLevel, l) == CountLevel(ids.detector.history, l)
  {
    (ids.(running := false), GetThreatSummary(ids.detector))
  }

  /** One turn of the monitoring loop: a scan with that moment's attempt map, firewall
      answers and clock, or the user's interrupt. */
  datatype Cycle = Tick(attempts: seq<(string, int)>, firewall: string -> bool, ts: Stamp) | Interrupt

  /** The `while self.running` loop of `start`: scans until an interrupt stops the controller. */
  function Run(ids: IdsState, cycles: seq<Cycle>): (r: (IdsState, seq<Event>))
    ensures r.0.detector.history == ids.detector.history + Saved(r.1)
    ensures Ordered(r.1)
    decreases |cycles|
  {
    if |cycles| == 0 then (ids, [])
    else
      match cycles[0]
      case Interrupt => (Stop(ids).0, [])
      case Tick(attempts, firewall, ts) =>
        var s := ScanAndRespond(ids, attempts, firewall, ts);
        var rest := Run(s.0, cycles[1..]);
        OrderedAppend(s.1, rest.1);
        SavedAppend(s.1, rest.1);
        (rest.0, s.1 + rest.1)
  }

  /** The loop ends not running exactly when an interrupt arrives; without one the flag is
      left as it was. */
  lemma RunStops(ids: IdsState, cycles: seq<Cycle>)
    ensures (exists i :: 0 <= i < |cycles| && cycles[i].Interrupt?) ==> !Run(ids, cycles).0.running
    ensures (forall i :: 0 <= i < |cycles| ==> cycles[i].Tick?) ==> Run(ids, cycles).0.running == ids.running
  {
    RunStopsOnInterrupt(ids, cycles);
    RunKeepsRunning(ids, cycles);
  }

  /** An interrupt anywhere leaves the system stopped. */
  lemma {:induction false} RunStopsOnInterrupt(ids: IdsState, cycles: seq<Cycle>)
    ensures (exists i :: 0 <= i < |cycles| && cycles[i].Interrupt?) ==> !Run(ids, cycles).0.running
    decreases |cycles|
  {
    if |cycles| > 0 && cycles[0].Tick? {
      var s := ScanAndRespond(ids, cycles[0].attempts, cycles[0].firewall, cycles[0].ts).0;
      RunTickStep(ids, cycles);
      if exists i :: 0 <= i < |cycles| && cycles[i].Interrupt? {
        var i :| 0 <= i < |cycles| && cycles[i].Interrupt?;
        assert cycles[1..][i - 1].Interrupt?;
        RunStopsOnInterrupt(s, cycles[1..]);
      }
    }
  }

  /** Scans alone leave the running flag as it was. */
  lemma {:induction false} RunKeepsRunning(ids: IdsState, cycles: seq<Cycle>)
    ensures (forall i :: 0 <= i < |cycles| ==> cycles[i].Tick?) ==> Run(ids, cycles).0.running == ids.running
    decreases |cycles|
  {
    if |cycles| > 0 && cycles[0].Tick? {
      var s := ScanAndRespond(ids, cycles[0].attempts, cycles[0].firewall, cycles[0].ts).0;
      RunTickStep(ids, cycles);
      RunKeepsRunning(s, cycles[1..]);
      assert forall i :: 0 <= i < |cycles[1..]| ==> cycles[1..][i] == cycles[i + 1];
    }
  }

  /** A scan cycle hands the controller's state on to the rest of the loop. */
  lemma RunTickStep(ids: IdsState, cycles: seq<Cycle>)
    requires |cycles| > 0 && cycles[0].Tick?
    ensures var s := ScanAndRespond(ids, cycles[0].attempts, cycles[0].firewall, cycles[0].ts).0;
            Run(ids, cycles).0 == Run(s, cycles[1..]).0 && s.running == ids.running
  {
  }



  /** `start`. */
  function Start(ids: IdsState, cycles: seq<Cycle>): (r: (IdsState, seq<Event>))
    ensures (exists i :: 0 <= i < |cycles| && cycles[i].Interrupt?) <==> !r.0.running
  {
    RunStops(ids.(running := true), cycles);
    Run(ids.(running := true), cycles)
  }

  /** After an interrupt the loop is over: later cycles change nothing. */
  lemma {:induction false} InterruptEndsMonitoring(ids: IdsState, before: seq<Cycle>, after: seq<Cycle>)
    ensures Run(ids, before + [Interrupt] + after) == Run(ids, before + [Interrupt])
    decreases |before|
  {
    if |before| == 0 {
      assert (before + [Interrupt] + after)[0] == Interrupt;
      assert (before + [Interrupt])[0] == Interrupt;
    } else {
      assert (before + [Interrupt] + after)[1..] == before[1..] + [Interrupt] + after;
      assert (before + [Interrupt])[1..] == before[1..] + [Interrupt];
      assert (before + [Interrupt] + after)[0] == before[0];
      assert (before + [Interrupt])[0] == before[0];
      match before[0]
      case Interrupt =>
      case Tick(attempts, firewall, ts) =>
        var s := ScanAndRespond(ids, attempts, firewall, ts);
        InterruptEndsMonitoring(s.0, before[1..], after);
    }
  }
}

=== FILE: levels.dfy ===
/** The four severity tiers shared by the login-attempt detector and the HTTP detector. */
module Levels {

  datatype Level = LOW | MEDIUM | HIGH | CRITICAL

  /** Position of a tier in the order LOW < MEDIUM < HIGH < CRITICAL. */
  function Rank(l: Level): nat {
    match l
    case LOW => 0
    case MEDIUM => 1
    case HIGH => 2
    case CRITICAL => 3
  }
}

=== FILE: linked_list.dfy ===
/** The custom singly linked list used for blocked addresses: append at the tail, linear
    search, removal of the first matching node, and conversion to a sequence. */
module LinkedLists {
  import opened Chains

  /** `head` is the first node (or `Nil`); `size` is the counter the source maintains by hand. */
  datatype LinkedList<T> = LinkedList(head: Chain<T>, size: int)

  /** The representation invariant: the hand-maintained counter equals the node count. */
  predicate Valid<T>(l: LinkedList<T>) {
    l.size == Length(l.head)
  }

  /** The abstract value of a list: its elements from head to tail. */
  function Model<T>(l: LinkedList<T>): seq<T> {
    Elements(l.head)
  }

  /** A freshly constructed list. */
  function Empty<T>(): (l: LinkedList<T>)
    ensures Valid(l)
    ensures Model(l) == []
  {
    LinkedList(Nil, 0)
  }

  /** `append`: link a new node after the current tail. */
  function Append<T>(l: LinkedList<T>, d: T): (r: LinkedList<T>)
    ensures Model(r) == Model(l) + [d]
    ensures r.size == l.size + 1
    ensures Valid(l) ==> Valid(r)
  {
    if l.head.Nil? then
      LinkedList(Node(d, Nil), l.size + 1)
    else
      LinkedList(Snoc(l.head, d), l.size + 1)
  }

  /** `search`: walk the nodes until one holds `d`. */
  method Search<T(==)>(l: LinkedList<T>, d: T) returns (found: bool)
    ensures found <==> d in Model(l)
  {
    var current := l.head;
    ghost var passed: seq<T> := [];
    while current.Node?
      invariant Elements(l.head) == passed + Elements(current)
      invariant d !in passed
      decreases current
    {
      if current.data == d {
        return true;
      }
      passed := passed + [current.data];
      current := current.next;
    }
    return false;
  }

  /** Position of the first occurrence of `d` in `s`. */
  function FirstIndex<T(==)>(s: seq<T>, d: T): (i: nat)
    requires d in s
    ensures i < |s| && s[i] == d && d !in s[..i]
  {
    if s[0] == d then 0
    else
      var j := FirstIndex(s[1..], d);
      assert s[..j + 1] == [s[0]] + s[1..][..j];
      1 + j
  }

  /** `s` without its first occurrence of `d` (unchanged when `d` does not occur). */
  function WithoutFirst<T(==)>(s: seq<T>, d: T): seq<T> {
    if d in s then s[..FirstIndex(s, d)] + s[FirstIndex(s, d) + 1..] else s
  }

  /** Unlink the first node holding `d`; the flag tells whether one was found. */
  function RemoveFirst<T(==)>(c: Chain<T>, d: T): (r: (Chain<T>, bool))
    ensures r.1 <==> d in Elements(c)
    ensures !r.1 ==> r.0 == c
    ensures Elements(r.0) == WithoutFirst(Elements(c), d)
    ensures r.1 ==> Length(r.0) + 1 == Length(c)
  {
    match c
    case Nil => (Nil, false)
    case Node(x, n) =>
      if x == d then
        (n, true)
      else
        var r := RemoveFirst(n, d);
        WithoutFirstSkips(x, Elements(n), d);
        if r.1 then (Node(x, r.0), true) else (c, false)
  }

  /** Removing the first `d` from a sequence that does not start with `d` keeps its head. */
  lemma WithoutFirstSkips<T>(x: T, s: seq<T>, d: T)
    requires x != d
    ensures WithoutFirst([x] + s, d) == [x] + WithoutFirst(s, d)
  {
    var t := [x] + s;
    if d in s {
      var k := FirstIndex(s, d);
      assert t[1..] == s;
      assert FirstIndex(t, d) == 1 + k;
      assert t[..1 + k] == [x] + s[..k];
      assert t[1 + k + 1..] == s[k + 1..];
    }
  }

  /** `remove`: delete the first occurrence of `d`, reporting whether there was one. */
  function Remove<T(==)>(l: LinkedList<T>, d: T): (r: (LinkedList<T>, bool))
    ensures r.1 <==> d in Model(l)
    ensures !r.1 ==> r.0 == l
    ensures r.1 ==> r.0.size == l.size - 1
    ensures r.1 ==> var i := FirstIndex(Model(l), d);
                    Model(r.0) == Model(l)[..i] + Model(l)[i + 1..]
    ensures Valid(l) ==> Valid(r.0)
  {
    var (h, found) := RemoveFirst(l.head, d);
    if found then (LinkedList(h, l.size - 1), true) else (l, false)
  }

  /** `to_list`: collect the node values by walking from the head. */
  method ToList<T>(l: LinkedList<T>) returns (result: seq<T>)
    ensures result == Model(l)
  {
    result := [];
    var current := l.head;
    while current.Node?
      invariant Elements(l.head) == result + Elements(current)
      decreases current
    {
      result := result + [current.data];
      current := current.next;
    }
  }

  /** `__len__`: the counter, which equals the number of elements on every valid list. */
  function Len<T>(l: LinkedList<T>): (n: int)
    ensures Valid(l) ==> n == |Model(l)|
  {
    LengthIsElementCount(l.head);
    l.size
  }

  /** Removing an element that was just appended to a list without it gives the list back. */
  lemma AppendThenRemove<T>(l: LinkedList<T>, d: T)
    requires d !in Model(l)
    ensures Remove(Append(l, d), d).1
    ensures Model(Remove(Append(l, d), d).0) == Model(l)
  {
    var s := Model(l) + [d];
    var k := FirstIndex(s, d);
    assert k == |Model(l)|;
    assert s[..k] == Model(l);
  }
}

=== FILE: log_parser.dfy ===
/** The SSH log-line matcher and the attempt ledger: each line is tried against four rules in
    a fixed order, the first rule that matches supplies the source address from a
    rule-specific capture group, and that address's count goes up by one in both the
    per-call map and the cumulative ledger. The regular-expression engine is not modelled:
    `pattern.search(line)` is the parameter `search`. */
module LogParsers {
  import opened Wrappers

  /** The rules of `PATTERNS`, named as in the source. */
  datatype Rule = FailedPassword | InvalidUser | AuthFailure | ConnectionClosed

  /** The order in which the rules are tried (the insertion order of the `PATTERNS` dict). */
  const RULES: seq<Rule> := [FailedPassword, InvalidUser, AuthFailure, ConnectionClosed]

  /** The pattern text of each rule. */
  function Pattern(r: Rule): string {
    match r
    case FailedPassword => @"Failed password for (?:invalid user )?(\S+) from (\d+\.\d+\.\d+\.\d+)"
    case InvalidUser => @"Invalid user (\S+) from (\d+\.\d+\.\d+\.\d+)"
    case AuthFailure => @"authentication failure.*rhost=(\d+\.\d+\.\d+\.\d+)"
    case ConnectionClosed => @"Connection closed by (?:authenticating user \S+ )?(\d+\.\d+\.\d+\.\d+).*\[preauth\]"
  }

  /** The capture groups of a successful search. The first two rules have two groups; the
      other two have one, and their `group2` is never read. */
  datatype Captures = Captures(group1: string, group2: string)

  /** `pattern.search(line)` for a rule: the captures of the first match, or `None`. */
  type Matcher = (Rule, string) -> Option<Captures>

  /** The capture group that holds the address: 2 for the two "user" rules, 1 otherwise. */
  function AddressGroup(r: Rule): nat {
    match r
    case FailedPassword => 2
    case InvalidUser => 2
    case AuthFailure => 1
    case ConnectionClosed => 1
  }

  /** `match.group(n)` for the groups the rules have. */
  function Group(c: Captures, n: nat): string {
    if n == 1 then c.group1 else c.group2
  }

  /** The address a rule's match supplies. */
  function AddressOf(search: Matcher, r: Rule, line: string): string
    requires search(r, line).Some?
  {
    Group(search(r, line).value, AddressGroup(r))
  }

  /** Try `rules` in order; the first one that matches supplies the address. */
  function FirstMatch(search: Matcher, rules: seq<Rule>, line: string): (r: Option<string>)
    ensures r.None? <==> forall i :: 0 <= i < |rules| ==> search(rules[i], line).None?
    ensures r.Some? ==> exists i :: 0 <= i < |rules| && search(rules[i], line).Some?
                                    && (forall j :: 0 <= j < i ==> search(rules[j], line).None?)
                                    && r.value == AddressOf(search, rules[i], line)
  {
    if |rules| == 0 then None
    else if search(rules[0], line).Some? then Some(AddressOf(search, rules[0], line))
    else
      var r := FirstMatch(search, rules[1..], line);
      assert forall i :: 1 <= i < |rules| ==> rules[i] == rules[1..][i - 1];
      r
  }

  /** The inner loop of `parse_lines` for one line: the address of the first matching rule in
      the order of `RULES`, or `None` when no rule matches. */
  function ExtractAddress(search: Matcher, line: string): (r: Option<string>)
    ensures r.None? <==> forall rule :: search(rule, line).None?
    ensures search(FailedPassword, line).Some? ==> r == Some(search(FailedPassword, line).value.group2)
    ensures search(FailedPassword, line).None? && search(InvalidUser, line).Some?
            ==> r == Some(search(InvalidUser, line).value.group2)
    ensures search(FailedPassword, line).None? && search(InvalidUser, line).None?
            && search(AuthFailure, line).Some?
            ==> r == Some(search(AuthFailure, line).value.group1)
    ensures search(FailedPassword, line).None? && search(InvalidUser, line).None?
            && search(AuthFailure, line).None? && search(ConnectionClosed, line).Some?
            ==> r == Some(search(ConnectionClosed, line).value.group1)
  {
    FirstMatchOfRules(search, line);
    FirstMatch(search, RULES, line)
  }

  /** The four rules in their order, spelled out for `FirstMatch`'s contract. */
  lemma FirstMatchOfRules(search: Matcher, line: string)
    ensures var r := FirstMatch(search, RULES, line);
      && (r.None? <==> forall rule :: search(rule, line).None?)
      && (search(FailedPassword, line).Some? ==> r == Some(search(FailedPassword, line).value.group2))
      && (search(FailedPassword, line).None? && search(InvalidUser, line).Some?
          ==> r == Some(search(InvalidUser, line).value.group2))
      && (search(FailedPassword, line).None? && search(InvalidUser, line).None?
          && search(AuthFailure, line).Some?
          ==> r == Some(search(AuthFailure, line).value.group1))
      && (search(FailedPassword, line).None? && search(InvalidUser, line).None?
          && search(AuthFailure, line).None? && search(ConnectionClosed, line).Some?
          ==> r == Some(search(ConnectionClosed, line).value.group1))
  {
    var r := FirstMatch(search, RULES, line);
    assert RULES[0] == FailedPassword && RULES[1] == InvalidUser && RULES[2] == AuthFailure
           && RULES[3] == ConnectionClosed;
    forall rule
      ensures r.None? ==> search(rule, line).None?
    {
      match rule
      case FailedPassword => assert RULES[0] == rule;
      case InvalidUser => assert RULES[1] == rule;
      case AuthFailure => assert RULES[2] == rule;
      case ConnectionClosed => assert RULES[3] == rule;
    }
    if r.Some? {
      var i :| 0 <= i < |RULES| && search(RULES[i], line).Some?
               && (forall j :: 0 <= j < i ==> search(RULES[j], line).None?)
               && r.value == AddressOf(search, RULES[i], line);
    }
  }

  /** The ledger: `failed_attempts`, cumulative per-address counts. */
  datatype LogParser = LogParser(failedAttempts: map<string, nat>)

  /** A `defaultdict(int)` lookup. */
  function Count0(m: map<string, nat>, ip: string): nat {
    if ip in m then m[ip] else 0
  }

  /** `m[ip] += 1` on a `defaultdict(int)`. */
  function Bump(m: map<string, nat>, ip: string): (r: map<string, nat>)
    ensures r.Keys == m.Keys + {ip}
    ensures Count0(r, ip) == Count0(m, ip) + 1
    ensures forall other :: other != ip ==> Count0(r, other) == Count0(m, other)
  {
    m[ip := Count0(m, ip) + 1]
  }

  /** The number of `lines` from which `ip` is extracted. */
  function LinesFrom(search: Matcher, lines: seq<string>, ip: string): nat {
    if |lines| == 0 then 0
    else (if ExtractAddress(search, lines[0]) == Some(ip) then 1 else 0) + LinesFrom(search, lines[1..], ip)
  }

  /** The number of `lines` from which some address is extracted. */
  function MatchingLines(search: Matcher, lines: seq<string>): (n: nat)
    ensures n <= |lines|
  {
    if |lines| == 0 then 0
    else (if ExtractAddress(search, lines[0]).Some? then 1 else 0) + MatchingLines(search, lines[1..])
  }

  /** The sum of the values of a map. */
  ghost function SumValues(m: map<string, nat>): nat
    decreases |m|
  {
    if m == map[] then 0
    else
      var k :| k in m;
      m[k] + SumValues(m - {k})
  }

  /** The sum does not depend on which key is taken out first. */
  lemma SumValuesRemove(m: map<string, nat>, k: string)
    requires k in m
    ensures SumValues(m) == m[k] + SumValues(m - {k})
    decreases |m|
  {
    var k' :| k' in m && SumValues(m) == m[k'] + SumValues(m - {k'});
    if k' != k {
      assert (m - {k'}) - {k} == (m - {k}) - {k'};
      SumValuesRemove(m - {k'}, k);
      SumValuesRemove(m - {k}, k');
    }
  }

  /** Counting one more occurrence adds one to the sum. */
  lemma SumValuesBump(m: map<string, nat>, ip: string)
    ensures SumValues(Bump(m, ip)) == SumValues(m) + 1
  {
    var r := Bump(m, ip);
    SumValuesRemove(r, ip);
    if ip in m {
      SumValuesRemove(m, ip);
      assert r - {ip} == m - {ip};
    } else {
      assert r - {ip} == m;
    }
  }

  /** The loop of `parse_lines` from some point on: `cumulative` and `perCall` are the ledger and
      the per-call map so far. */
  function ParseFrom(search: Matcher, cumulative: map<string, nat>, perCall: map<string, nat>, lines: seq<string>)
    : (r: (map<string, nat>, map<string, nat>))
    ensures r.0.Keys + perCall.Keys == cumulative.Keys + r.1.Keys
    ensures r.0.Keys >= cumulative.Keys && r.1.Keys >= perCall.Keys
    ensures forall ip :: Count0(r.1, ip) == Count0(perCall, ip) + LinesFrom(search, lines, ip)
    ensures forall ip :: Count0(r.0, ip) + Count0(perCall, ip) == Count0(cumulative, ip) + Count0(r.1, ip)
    decreases |lines|
  {
    if |lines| == 0 then (cumulative, perCall)
    else
      match ExtractAddress(search, lines[0])
      case None => ParseFrom(search, cumulative, perCall, lines[1..])
      case Some(ip) =>
        var r := ParseFrom(search, Bump(cumulative, ip), Bump(perCall, ip), lines[1..]);
        ParseStepKeys(cumulative, perCall, ip, r);
        ParseStepCounts(search, cumulative, perCall, lines, ip, r);
        r
  }

  /** One matching line, for the key sets: what holds after bumping both maps for `ip` holds
      before it. */
  lemma ParseStepKeys(cumulative: map<string, nat>, perCall: map<string, nat>, ip: string,
                      r: (map<string, nat>, map<string, nat>))
    requires r.0.Keys + Bump(perCall, ip).Keys == Bump(cumulative, ip).Keys + r.1.Keys
    requires r.0.Keys >= Bump(cumulative, ip).Keys && r.1.Keys >= Bump(perCall, ip).Keys
    ensures r.0.Keys + perCall.Keys == cumulative.Keys + r.1.Keys
    ensures r.0.Keys >= cumulative.Keys && r.1.Keys >= perCall.Keys
  {
    assert ip in r.0.Keys && ip in r.1.Keys;
  }

  /** One matching line, for the counts: what holds after bumping both maps for `ip` holds
      before it, with the line counted. */
  lemma ParseStepCounts(search: Matcher, cumulative: map<string, nat>, perCall: map<string, nat>, lines: seq<string>,
                        ip: string, r: (map<string, nat>, map<string, nat>))
    requires |lines| > 0 && ExtractAddress(search, lines[0]) == Some(ip)
    requires forall x :: Count0(r.1, x) == Count0(Bump(perCall, ip), x) + LinesFrom(search, lines[1..], x)
    requires forall x :: Count0(r.0, x) + Count0(Bump(perCall, ip), x) == Count0(Bump(cumulative, ip), x) + Count0(r.1, x)
    ensures forall x :: Count0(r.1, x) == Count0(perCall, x) + LinesFrom(search, lines, x)
    ensures forall x :: Count0(r.0, x) + Count0(perCall, x) == Count0(cumulative, x) + Count0(r.1, x)
  {
    forall x
      ensures Count0(r.1, x) == Count0(perCall, x) + LinesFrom(search, lines, x)
      ensures Count0(r.0, x) + Count0(perCall, x) == Count0(cumulative, x) + Count0(r.1, x)
    {
      assert LinesFrom(search, lines, x) == (if x == ip then 1 else 0) + LinesFrom(search, lines[1..], x);
    }
  }


  /** Each matching line adds one to the per-call total; only positive counts are stored. */
  lemma {:induction false} ParseFromTotals(search: Matcher, cumulative: map<string, nat>, perCall: map<string, nat>,
                                           lines: seq<string>)
    ensures var r := ParseFrom(search, cumulative, perCall, lines);
            && SumValues(r.1) == SumValues(perCall) + MatchingLines(search, lines)
            && ((forall ip :: ip in perCall ==> perCall[ip] >= 1) ==> forall ip :: ip in r.1 ==> r.1[ip] >= 1)
    decreases |lines|
  {
    if |lines| > 0 {
      match ExtractAddress(search, lines[0])
      case None => ParseFromTotals(search, cumulative, perCall, lines[1..]);
      case Some(ip) =>
        SumValuesBump(perCall, ip);
        ParseFromTotals(search, Bump(cumulative, ip), Bump(perCall, ip), lines[1..]);
    }
  }

  /** `parse_lines`: the per-call map of new attempts, with the ledger updated alongside. */
  function ParseLines(p: LogParser, search: Matcher, lines: seq<string>): (r: (LogParser, map<string, nat>))
    ensures forall ip :: Count0(r.1, ip) == LinesFrom(search, lines, ip)
    ensures forall ip :: ip in r.1 ==> r.1[ip] >= 1
    ensures forall ip :: Count0(r.0.failedAttempts, ip) == Count0(p.failedAttempts, ip) + Count0(r.1, ip)
    ensures r.0.failedAttempts.Keys == p.failedAttempts.Keys + r.1.Keys
  {
    ParseFromTotals(search, p.failedAttempts, map[], lines);
    var (cumulative, perCall) := ParseFrom(search, p.failedAttempts, map[], lines);
    (LogParser(cumulative), perCall)
  }

  /** The returned counts add up to the number of matching lines, so to at most the number
      of lines. */
  lemma ParseLinesTotal(p: LogParser, search: Matcher, lines: seq<string>)
    ensures SumValues(ParseLines(p, search, lines).1) == MatchingLines(search, lines) <= |lines|
  {
    assert SumValues(map[]) == 0;
    ParseFromTotals(search, p.failedAttempts, map[], lines);
  }

  /** A single line changes at most one address, by exactly one; a line no rule matches
      changes nothing. */
  lemma OneLine(p: LogParser, search: Matcher, line: string)
    ensures ExtractAddress(search, line).None? ==> ParseLines(p, search, [line]) == (p, map[])
    ensures ExtractAddress(search, line).Some? ==>
              var ip := ExtractAddress(search, line).value;
              ParseLines(p, search, [line]) == (LogParser(Bump(p.failedAttempts, ip)), map[ip := 1])
  {
    assert [line][1..] == [];
    match ExtractAddress(search, line)
    case None =>
      assert ParseFrom(search, p.failedAttempts, map[], [line]) == (p.failedAttempts, map[]);
    case Some(ip) =>
      assert Bump(map[], ip) == map[ip := 1];
      assert ParseFrom(search, p.failedAttempts, map[], [line]) == (Bump(p.failedAttempts, ip), map[ip := 1]);
  }

  /** The ledger side of the loop does not depend on the per-call map. */
  lemma {:induction false} LedgerIgnoresFresh(search: Matcher, cumulative: map<string, nat>,
                                               f1: map<string, nat>, f2: map<string, nat>, lines: seq<string>)
    ensures ParseFrom(search, cumulative, f1, lines).0 == ParseFrom(search, cumulative, f2, lines).0
    decreases |lines|
  {
    if |lines| > 0 {
      match ExtractAddress(search, lines[0])
      case None => LedgerIgnoresFresh(search, cumulative, f1, f2, lines[1..]);
      case Some(ip) => LedgerIgnoresFresh(search, Bump(cumulative, ip), Bump(f1, ip), Bump(f2, ip), lines[1..]);
    }
  }

  /** Counts accumulate across calls: two calls leave the ledger as one call on all the lines. */
  lemma {:induction false} LedgerAccumulates(p: LogParser, search: Matcher, a: seq<string>, b: seq<string>)
    ensures ParseLines(ParseLines(p, search, a).0, search, b).0 == ParseLines(p, search, a + b).0
  {
    FromAppend(search, p.failedAttempts, map[], a, b);
    var mid := ParseFrom(search, p.failedAttempts, map[], a);
    LedgerIgnoresFresh(search, mid.0, mid.1, map[], b);
  }

  lemma {:induction false} FromAppend(search: Matcher, cumulative: map<string, nat>, perCall: map<string, nat>,
                                      a: seq<string>, b: seq<string>)
    ensures var mid := ParseFrom(search, cumulative, perCall, a);
            ParseFrom(search, cumulative, perCall, a + b) == ParseFrom(search, mid.0, mid.1, b)
    decreases |a|
  {
    if |a| == 0 {
      assert a + b == b;
    } else {
      assert (a + b)[0] == a[0] && (a + b)[1..] == a[1..] + b;
      match ExtractAddress(search, a[0])
      case None => FromAppend(search, cumulative, perCall, a[1..], b);
      case Some(ip) => FromAppend(search, Bump(cumulative, ip), Bump(perCall, ip), a[1..], b);
    }
  }

  /** `get_all_attempts`: a copy of the ledger. */
  function GetAllAttempts(p: LogParser): map<string, nat> {
    p.failedAttempts
  }

  /** `reset`: clear the ledger. */
  function Reset(p: LogParser): (r: LogParser)
    ensures GetAllAttempts(r) == map[]
  {
    LogParser(map[])
  }

  /** The parser after `parse_lines` has been called on each batch in turn. */
  function ParseBatches(p: LogParser, search: Matcher, batches: seq<seq<string>>): LogParser
    decreases |batches|
  {
    if |batches| == 0 then p else ParseBatches(ParseLines(p, search, batches[0]).0, search, batches[1..])
  }

  /** All batches' lines, in order. */
  function Concat(batches: seq<seq<string>>): seq<string> {
    if |batches| == 0 then [] else batches[0] + Concat(batches[1..])
  }

  /** `get_all_attempts` after any number of calls: each address's count is its old count plus
      the number of lines attributed to it across all the batches. */
  lemma {:induction false} AllAttemptsCountLines(p: LogParser, search: Matcher, batches: seq<seq<string>>)
    ensures ParseBatches(p, search, batches) == ParseLines(p, search, Concat(batches)).0
    ensures forall ip :: Count0(GetAllAttempts(ParseBatches(p, search, batches)), ip)
                         == Count0(GetAllAttempts(p), ip) + LinesFrom(search, Concat(batches), ip)
    decreases |batches|
  {
    if |batches| == 0 {
      assert ParseLines(p, search, []).0 == p by {
        assert forall ip :: Count0(ParseLines(p, search, []).0.failedAttempts, ip) == Count0(p.failedAttempts, ip);
      }
    } else {
      var q := ParseLines(p, search, batches[0]).0;
      AllAttemptsCountLines(q, search, batches[1..]);
      LedgerAccumulates(p, search, batches[0], Concat(batches[1..]));
    }
  }

  /** After a reset, the ledger holds exactly the attempts of the next call. */
  lemma ResetThenParse(p: LogParser, search: Matcher, lines: seq<string>)
    ensures var (q, perCall) := ParseLines(Reset(p), search, lines);
            GetAllAttempts(q) == perCall
  {
    var (q, perCall) := ParseLines(Reset(p), search, lines);
    assert forall ip :: ip in perCall ==> q.failedAttempts[ip] == Count0(q.failedAttempts, ip) == Count0(perCall, ip);
  }
}

=== FILE: queue.dfy ===
/** The custom FIFO queue used for pending log lines: a chain of nodes with `front` and
    `rear` references and a hand-maintained `size`. */
module Queues {
  import opened Chains
  import opened Wrappers

  /** `front` is the first node, `rear` designates the last one; both are `Nil` when empty. */
  datatype Queue<T> = Queue(front: Chain<T>, rear: Chain<T>, size: int)

  /** The representation invariant: `rear` is the last node of the chain starting at `front`
      and `size` counts its nodes. */
  ghost predicate Valid<T>(q: Queue<T>) {
    q.size == Length(q.front) && q.rear == LastNode(q.front)
  }

  /** The abstract value of a queue: its elements from front to rear. */
  function Model<T>(q: Queue<T>): seq<T> {
    Elements(q.front)
  }

  /** A freshly constructed queue. */
  function Empty<T>(): (q: Queue<T>)
    ensures Valid(q)
    ensures Model(q) == []
  {
    Queue(Nil, Nil, 0)
  }

  /** `is_empty`: decided by `front` alone. On a valid queue this agrees with `size == 0`,
      with the queue holding no element, and with `rear` being `None`. */
  function IsEmpty<T>(q: Queue<T>): (r: bool)
    ensures Valid(q) ==> (r <==> q.size == 0)
    ensures Valid(q) ==> (r <==> Model(q) == [])
    ensures Valid(q) ==> (r <==> q.rear.Nil?)
  {
    LengthIsElementCount(q.front);
    LastNodeHoldsLastElement(q.front);
    q.front.Nil?
  }

  /** `enqueue`: link a new node after `rear` and make it the new `rear`. */
  function Enqueue<T>(q: Queue<T>, d: T): (r: Queue<T>)
    ensures Model(r) == Model(q) + [d]
    ensures r.size == q.size + 1
    ensures Valid(q) ==> Valid(r)
  {
    if q.front.Nil? then
      Queue(Node(d, Nil), Node(d, Nil), q.size + 1)
    else
      Queue(Snoc(q.front, d), Node(d, Nil), q.size + 1)
  }

  /** `dequeue`: unlink the front node and return its value; `None` on an empty queue,
      which is then left as it was. */
  function Dequeue<T>(q: Queue<T>): (r: (Queue<T>, Option<T>))
    ensures r.1.None? <==> q.front.Nil?
    ensures r.1.None? ==> r.0 == q
    ensures r.1.Some? ==> r.1.value == Model(q)[0] && Model(r.0) == Model(q)[1..]
    ensures r.1.Some? ==> r.0.size == q.size - 1
    ensures Valid(q) ==> Valid(r.0)
  {
    if q.front.Nil? then
      (q, None)
    else
      var f := q.front.next;
      (Queue(f, if f.Nil? then Nil else q.rear, q.size - 1), Some(q.front.data))
  }

  /** `peek`: the front value without unlinking it; `None` on an empty queue. */
  function Peek<T>(q: Queue<T>): (r: Option<T>)
    ensures r.None? <==> Model(q) == []
    ensures r.Some? ==> r.value == Model(q)[0]
    ensures r == Dequeue(q).1
  {
    if q.front.Nil? then None else Some(q.front.data)
  }

  /** `to_list`: collect the values by walking from `front`. */
  method ToList<T>(q: Queue<T>) returns (result: seq<T>)
    ensures result == Model(q)
  {
    result := [];
    var current := q.front;
    while current.Node?
      invariant Elements(q.front) == result + Elements(current)
      decreases current
    {
      result := result + [current.data];
      current := current.next;
    }
  }

  /** `__len__`: the counter, which equals the number of queued values on a valid queue. */
  function Len<T>(q: Queue<T>): (n: int)
    ensures Valid(q) ==> n == |Model(q)|
  {
    LengthIsElementCount(q.front);
    q.size
  }

  /** Enqueue every value of `xs`, first to last. */
  function EnqueueAll<T>(q: Queue<T>, xs: seq<T>): (r: Queue<T>)
    ensures Model(r) == Model(q) + xs
    ensures Valid(q) ==> Valid(r)
    decreases |xs|
  {
    if |xs| == 0 then q
    else
      assert Model(q) + xs == (Model(q) + [xs[0]]) + xs[1..];
      EnqueueAll(Enqueue(q, xs[0]), xs[1..])
  }

  /** Dequeue until the queue is empty, collecting the returned values. */
  function DequeueAll<T>(q: Queue<T>): (out: seq<T>)
    requires Valid(q)
    ensures out == Model(q)
    decreases q.size
  {
    var (q', x) := Dequeue(q);
    if x.None? then []
    else
      LengthIsElementCount(q.front);
      [x.value] + DequeueAll(q')
  }

  /** FIFO: values come out of a fresh queue in the order they went in. */
  lemma FirstInFirstOut<T>(xs: seq<T>)
    ensures DequeueAll(EnqueueAll(Empty<T>(), xs)) == xs
  {
  }
}

=== FILE: wrappers.dfy ===
/** Python's "a value or `None`", as a datatype. */
module Wrappers {

  datatype Option<+T> = None | Some(value: T) {

    /** `dict.get(k) or 0` and the like: the held value, else the fallback. */
    function GetOr(default: T): T {
      match this
      case Some(v) => v
      case None => default
    }
  }
}
